=== FILE: README.md ===
# GitHub portfolio page: repository tagging and filtering

This project models the logic of a one-page Next.js portfolio. The page lists a user's
public GitHub repositories. It tags each repository with technologies such as React,
Next.js or Jekyll, and lets the visitor narrow the list with filter buttons. It also models
the table-driven `detectTechnology` that the project's unit tests exercise, together with
those tests.

Modules:

- `Wrappers`: `Option`, which models a JSON field that may be absent or null.
- `Ascii`: lower-casing (`toLowerCase`) and substring search (`String.prototype.includes`).
- `Seqs`: subsequences, duplicate-freedom and `Array.prototype.filter`.
- `Portfolio`:
  - the repository record and the button labels (`Technologies`);
  - the page's seven classification rules (`PageRules`) and the classifier (`Detect`);
  - `FilterRepos`, `Toggle`, `ClearAll`, and `PublicRepos` (drops forks and private repositories).
- `PortfolioFacts`: properties of the page's logic.
- `KeywordClassifier`: the keyword table of the test file, and its two-phase classifier.
  - Topic phase: an own-property lookup of each lower-cased topic.
  - Name phase: every key contained in the lower-cased name adds its label once.
- `KeywordFacts`: the five unit tests as lemmas, and the table facts they rely on.
- `PrototypeLookup`: the test classifier's property read as written, which also finds
  inherited `Object.prototype` members. It is related to the own-property reading (see
  Findings).

## Model

| member | source | states |
|---|---|---|
| Portfolio.Technologies | pages/index.js:13 | The seven filter-button labels, in display order. `PortfolioFacts.RuleLabelsAreTechnologies` proves that they are the rules' labels, in rule order, and distinct. |
| Portfolio.PageRules | pages/index.js:46-72 | The seven `if` conditions of `detectTechnology`, one rule per condition, in source order. Each rule's condition is spelled out by its lemma, from `PortfolioFacts.ReactFires` to `PortfolioFacts.TailwindFires`. |
| Portfolio.LanguageKey | pages/index.js:40 | The optional lower-cased language, defaulting to `''`. `PortfolioFacts.MissingFieldsActAsEmpty` shows a missing language tags like `''`. `PortfolioFacts.DetectWithSameKeys` shows the rules read the language only through this key. |
| Portfolio.NameKey | pages/index.js:41 | `repo.name.toLowerCase()`. `PortfolioFacts.DetectWithSameKeys` shows the rules read the name only through this key, and `PortfolioFacts.NameNextImpliesNextJs` uses it. |
| Portfolio.DescriptionKey | pages/index.js:42 | The lower-cased description, defaulting to `''`. `PortfolioFacts.MissingFieldsActAsEmpty` shows a missing description tags like `''`. `PortfolioFacts.DetectWithSameKeys` shows the rules read it only through this key. |
| Portfolio.TopicList | pages/index.js:43 | The topic list, defaulting to `[]`, with the topics not lower-cased. `PortfolioFacts.MissingFieldsActAsEmpty` shows a missing list tags like `[]`. `PortfolioFacts.CapitalisedTopicIgnored` shows the topics are compared exactly. |
| Portfolio.IncludesAny | pages/index.js:50 | A chain of `x.includes(k)` tests joined by logical or. Specified by `PortfolioFacts.IncludesAnyExists`. |
| Portfolio.ContainsAny | pages/index.js:46 | A chain of `topics.includes(t)` tests joined by logical or. Specified by `PortfolioFacts.ContainsAnyExists`. |
| Portfolio.Fires | pages/index.js:46-70 | One `if` condition of the classifier: the language test, the `topics.includes` chain, the `name.includes` chain and the `description.includes` chain, joined by `||`. Specified by `PortfolioFacts.FiresExists`. |
| Portfolio.DetectWith | pages/index.js:38-75 | Tests the rules in order and pushes the label of each rule that fires. Specified by `Portfolio.DetectWithSpec`. |
| Portfolio.Detect | pages/index.js:38-75 | `detectTechnology`: `DetectWith` over the seven rules. Specified by `PortfolioFacts.DetectIsSubsequenceOfTechnologies`, `PortfolioFacts.DetectExactlyFiringRules` and the per-rule lemmas. |
| Portfolio.MatchesSelection | pages/index.js:84-85 | `selectedTechs.some(tech => repoTechs.includes(tech))`: some selected label is among the repository's tags. `Portfolio.FilterRepos` states its result in terms of it, and `PortfolioFacts.FilterWidening` and `PortfolioFacts.UnusedLabelShowsNothing` use it. |
| Portfolio.FilterRepos | pages/index.js:77-89 | An empty selection shows the list unchanged. Otherwise the result is an order-preserving subsequence holding exactly the repositories with at least one selected tag, each with its original multiplicity. |
| Portfolio.Toggle | pages/index.js:91-97 | A selected label is removed: every occurrence goes, and the other labels keep their order and counts. An unselected label is appended at the end. |
| Portfolio.ClearAll | pages/index.js:146-153 | "Clear All" empties the selection. |
| Portfolio.PublicRepos | pages/index.js:28-29 | Drops every fork and private repository and keeps the rest in order, with their multiplicity. |
| Portfolio.DetectWithSpec | pages/index.js:38-75 | Running the rules in order yields a subsequence of their labels. A label comes out exactly when a rule carrying it fires. |
| PortfolioFacts.RuleLabelsAreTechnologies | pages/index.js:13 | The rules carry the seven button labels, in button order, and the labels are distinct. |
| PortfolioFacts.DetectIsSubsequenceOfTechnologies | pages/index.js:38-75 | A repository's tags are a subsequence of the button list. They are duplicate-free, so the tags can serve as React keys, and every tag has a button. |
| PortfolioFacts.DetectExactlyFiringRules | pages/index.js:45-72 | Each button's label is attached if and only if that button's rule fires. |
| PortfolioFacts.DetectWithSameKeys | pages/index.js:40-43 | The rules read only the lower-cased language, name and description and the raw topics. |
| PortfolioFacts.MissingFieldsActAsEmpty | pages/index.js:40-43 | A null description, language or topic list tags exactly like an empty one. |
| PortfolioFacts.IncludesAnyExists | pages/index.js:50 | A chain of `includes` tests on one string succeeds if and only if one of the keys is a substring. |
| PortfolioFacts.ContainsAnyExists | pages/index.js:46 | A chain of `topics.includes` tests succeeds if and only if one wanted topic is present. |
| PortfolioFacts.FiresExists | pages/index.js:45-72 | A rule fires if and only if its language, topic, name or description test matches. |
| PortfolioFacts.ReactFires | pages/index.js:46 | Rule 0 fires if and only if the language is javascript, a topic is react or reactjs, or the description contains react. |
| PortfolioFacts.ReactRule | pages/index.js:46-48 | React if and only if: the language is JavaScript, a topic is "react" or "reactjs", or the description mentions react. The name is not consulted. |
| PortfolioFacts.NextJsFires | pages/index.js:50 | Rule 1 fires if and only if one of its five tests matches. |
| PortfolioFacts.NextJsRule | pages/index.js:50-52 | Next.js if and only if: a topic is "nextjs" or "next", the name contains next, or the description contains next.js or nextjs. |
| PortfolioFacts.JekyllFires | pages/index.js:54 | Rule 2 fires if and only if one of its four tests matches. |
| PortfolioFacts.JekyllRule | pages/index.js:54-56 | Jekyll if and only if: the language is Ruby, a topic is "jekyll", or the name or description contains jekyll. |
| PortfolioFacts.HtmlFires | pages/index.js:58 | Rule 3 fires if and only if one of its three tests matches. |
| PortfolioFacts.HtmlRule | pages/index.js:58-60 | HTML if and only if: the language is HTML, a topic is "html", or the description contains html. The name is not consulted. |
| PortfolioFacts.AstroFires | pages/index.js:62 | Rule 4 fires if and only if one of its four tests matches. |
| PortfolioFacts.AstroRule | pages/index.js:62-64 | Astro if and only if: the language is Astro, a topic is "astro", or the name or description contains astro. |
| PortfolioFacts.TypeScriptFires | pages/index.js:66 | Rule 5 fires if and only if one of its four tests matches. |
| PortfolioFacts.TypeScriptRule | pages/index.js:66-68 | TypeScript if and only if: the language is TypeScript, a topic is "typescript", or the name or description contains typescript. |
| PortfolioFacts.TailwindFires | pages/index.js:70 | Rule 6 fires if and only if one of its four tests matches. |
| PortfolioFacts.TailwindRule | pages/index.js:70-72 | TailwindCSS if and only if: the language is TailwindCSS, a topic is "tailwindcss", or the name or description contains tailwindcss. |
| PortfolioFacts.JavaScriptImpliesReact | pages/index.js:46 | Every JavaScript repository is tagged React. |
| PortfolioFacts.NameNextImpliesNextJs | pages/index.js:50 | A name containing "next" in any casing gives Next.js. |
| PortfolioFacts.CapitalisedTopicIgnored | pages/index.js:43-46 | Topics are compared exactly. The lone topic "React" does not give React; only the language or description can. |
| PortfolioFacts.LowerCaseTopicMatched | pages/index.js:46 | The topic "react" always gives React. |
| PortfolioFacts.JavaScriptLowers | pages/index.js:40 | The language "JavaScript" lower-cases to "javascript". |
| PortfolioFacts.MyNextAppNameLowers | pages/index.js:41 | "my-next-app" is already lower case. |
| PortfolioFacts.EmptyHasNoKeyword | pages/index.js:42 | A missing description, read as "", contains no keyword. |
| PortfolioFacts.MyNextAppNameKeywords | pages/index.js:50 | "my-next-app" contains "next" and none of the other rules' name keywords. |
| PortfolioFacts.MyNextAppFirstRules | pages/index.js:46-56 | In the my-next-app example, the React and Next.js rules fire and the Jekyll rule does not. |
| PortfolioFacts.MyNextAppNoHtml | pages/index.js:58-60 | In the my-next-app example, the HTML rule does not fire. |
| PortfolioFacts.MyNextAppNoAstro | pages/index.js:62-64 | In the my-next-app example, the Astro rule does not fire. |
| PortfolioFacts.MyNextAppNoTypeScript | pages/index.js:66-68 | In the my-next-app example, the TypeScript rule does not fire. |
| PortfolioFacts.MyNextAppNoTailwind | pages/index.js:70-72 | In the my-next-app example, the TailwindCSS rule does not fire. |
| PortfolioFacts.MyNextAppShapeList | pages/index.js:38-75 | Any repository with the example's keyword facts gets exactly the tag list React, Next.js, in button order. |
| PortfolioFacts.MyNextAppShapeTags | pages/index.js:38-75 | Any repository with the example's keyword facts is tagged exactly React and Next.js, once each. |
| PortfolioFacts.MyNextAppIsShaped | pages/index.js:40-43 | The example (JavaScript, topic react, no description) has those keyword facts. |
| PortfolioFacts.MyNextAppScenario | pages/index.js:38-75 | "my-next-app", JavaScript, topics ["react"] gets exactly the tag list ["React", "Next.js"]. React appears once although two of its tests match. |
| PortfolioFacts.FilterWidening | pages/index.js:83-86 | OR semantics: a larger selection never hides a repository that a smaller non-empty selection shows. |
| PortfolioFacts.UnusedLabelShowsNothing | pages/index.js:83-86 | Selecting a label no repository carries shows nothing. |
| PortfolioFacts.ClearAllShowsEverything | pages/index.js:78-80 | After Clear All the whole list is shown. |
| PortfolioFacts.ToggleTwiceRestores | pages/index.js:91-97 | Toggling an unselected label twice restores the selection. |
| PortfolioFacts.ToggleTwiceMovesToEnd | pages/index.js:91-97 | Toggling a selected label twice moves it to the end. |
| PortfolioFacts.ToggleKeepsNoDups | pages/index.js:91-97 | A toggle keeps the selection duplicate-free. Afterwards the label is selected if and only if it was not before. |
| PortfolioFacts.ButtonSelectionsStayWellFormed | pages/index.js:137-149 | Selections built from the buttons hold only button labels, each at most once. |
| PortfolioFacts.PublicReposIdempotent | pages/index.js:29 | Applying the fork/private filter twice equals applying it once. |
| KeywordClassifier.TechKeywords | __tests__/utils.test.js:4-47 | The 42 entries of `techKeywords`, in insertion order. `KeywordFacts.TableKeys` lists the keys, and `KeywordFacts.ReactEntry`, `KeywordFacts.NextJsEntry` and `KeywordFacts.TypeScriptEntry` give single entries. |
| KeywordClassifier.Lookup | __tests__/utils.test.js:53-54 | Reads an own property of the keyword object. Specified by `KeywordClassifier.LookupSpec` and `KeywordClassifier.LookupFirst`. |
| KeywordClassifier.TopicLabel | __tests__/utils.test.js:52-55 | One topic's contribution: the label of its lower-cased form when that label is truthy, else nothing. Specified by `KeywordClassifier.TopicLabelSpec`: at most one label, present exactly when the lookup finds a non-empty label, and always a table label. |
| KeywordClassifier.TopicLabelSpec | __tests__/utils.test.js:52-55 | A topic yields at most one label; a label is yielded if and only if the lower-cased topic looks up to it and it is non-empty; every yielded label is one of the table's. |
| KeywordClassifier.TopicPhase | __tests__/utils.test.js:50-57 | The topic phase runs only when `repo.topics` is an array; otherwise it contributes []. `KeywordClassifier.DetectWithSpec` and `KeywordFacts.DetectKeywordsLabels` state the classifier's result in terms of it. |
| KeywordClassifier.TopicLabels | __tests__/utils.test.js:49-57 | The topic phase: each lower-cased topic whose value is truthy pushes that value. Specified by `KeywordClassifier.TopicLabelsSpec` and `KeywordClassifier.TopicLabelsConcat`. |
| KeywordClassifier.NamePass | __tests__/utils.test.js:59-70 | The name phase over `Object.keys` order. Specified by `KeywordClassifier.NamePassSpec`. |
| KeywordClassifier.DetectWith | __tests__/utils.test.js:2-73 | The two phases over a given table. Specified by `KeywordClassifier.DetectWithSpec`. |
| KeywordClassifier.DetectKeywords | __tests__/utils.test.js:2-73 | The test file's `detectTechnology` over the 42-entry table. Specified by `KeywordFacts.DetectKeywordsLabels` and the test lemmas. |
| KeywordClassifier.LookupSpec | __tests__/utils.test.js:53-54 | An own-property read finds a value if and only if the key is in the table. The value belongs to an entry with that key. |
| KeywordClassifier.LookupFirst | __tests__/utils.test.js:53-54 | A lookup of the first entry with a key returns that entry's label. |
| KeywordClassifier.TopicLabelsSpec | __tests__/utils.test.js:49-57 | The topic phase yields at most one label per topic. A label is present if and only if some lower-cased topic maps to it (and it is non-empty). Every label is a table value. |
| KeywordClassifier.TopicLabelsConcat | __tests__/utils.test.js:51-56 | Each topic is handled on its own: the phase distributes over concatenation and does not de-duplicate. |
| KeywordClassifier.NamePassSpec | __tests__/utils.test.js:59-70 | The name phase keeps what came before as a prefix. It appends only new, distinct labels, in table (`Object.keys`) order. A label is present if and only if it was present before or some key inside the name carries it. |
| KeywordClassifier.DetectWithSpec | __tests__/utils.test.js:2-73 | The result is the topic labels, then new, distinct name labels in table order (the name is used only when truthy). Membership is characterised both ways, and every label is a table value. |
| KeywordClassifier.TopicLabelsSameLower | __tests__/utils.test.js:52 | Topics that lower-case alike give the same labels. |
| KeywordClassifier.DetectWithCaseInsensitive | __tests__/utils.test.js:52-63 | Names and topics that lower-case alike give identical results. |
| KeywordClassifier.TopicYields | __tests__/utils.test.js:51-55 | A topic lower-casing to a key puts that key's label in the result. |
| KeywordClassifier.NameYields | __tests__/utils.test.js:60-68 | A truthy name containing a lower-cased key puts its label in the result. |
| KeywordClassifier.TopicLabelsNone | __tests__/utils.test.js:51-56 | Topics that are not keys add nothing. |
| KeywordClassifier.NamePassNone | __tests__/utils.test.js:62-69 | A name containing no key adds nothing. |
| KeywordClassifier.NothingRecognised | __tests__/utils.test.js:49-72 | With no recognised topic and no key in the name, the result is empty. |
| KeywordFacts.DetectKeywordsLabels | __tests__/utils.test.js:4-72 | Every label reported is a value of the 42-entry table. Topic labels come first. Name labels are distinct, in table order and absent from the topic labels, as the `!technologies.includes(tech)` guard ensures. A label is reported if and only if a topic yields it or, for a truthy name, a table key inside the lower-cased name carries it. |
| KeywordFacts.ReactEntry | __tests__/utils.test.js:5 | Entry 0 maps react to React. |
| KeywordFacts.NextJsEntry | __tests__/utils.test.js:6 | Entry 1 maps nextjs to Next.js and is the first with that key. |
| KeywordFacts.TypeScriptEntry | __tests__/utils.test.js:8 | Entry 3 maps typescript to TypeScript and is the first with that key. |
| KeywordFacts.DetectsReactFromTopics | __tests__/utils.test.js:77-85 | Topics ["react", "javascript"] on "test-repo" give React. |
| KeywordFacts.DetectsNextJsFromTopics | __tests__/utils.test.js:87-95 | Topics ["nextjs", "react"] give Next.js. |
| KeywordFacts.ReactProjectName | __tests__/utils.test.js:100 | "react-project" contains "react". |
| KeywordFacts.DetectsReactFromName | __tests__/utils.test.js:97-105 | No topics and the name "react-project" give React through the name. |
| KeywordFacts.DetectsMultipleTechnologies | __tests__/utils.test.js:107-117 | Topics ["react", "typescript", "nextjs"] give React, TypeScript and Next.js, whatever the name. |
| KeywordFacts.ReactTopicAnywhere | __tests__/utils.test.js:51-55 | A topic "react" at any position gives React. |
| KeywordFacts.TypeScriptTopicAnywhere | __tests__/utils.test.js:51-55 | A topic "typescript" at any position gives TypeScript. |
| KeywordFacts.NextJsTopicAnywhere | __tests__/utils.test.js:51-55 | A topic "nextjs" at any position gives Next.js. |
| KeywordFacts.CapitalReactLowers | __tests__/utils.test.js:52 | The topic "React" lower-cases to "react". |
| KeywordFacts.TopicPairKept | __tests__/utils.test.js:51-56 | Two topics that lower-case alike each add their label: no de-duplication. |
| KeywordFacts.ReactTopicTwice | __tests__/utils.test.js:51-56 | Topics ["react", "React"] give ["React", "React"]. |
| KeywordFacts.TestRepoMisses0To5 | __tests__/utils.test.js:5-10 | Keys 0-5, lower-cased, do not occur in "test-repo". |
| KeywordFacts.TestRepoMisses6To11 | __tests__/utils.test.js:11-16 | Keys 6-11 do not occur in "test-repo". |
| KeywordFacts.TestRepoMisses12To17 | __tests__/utils.test.js:17-22 | Keys 12-17 do not occur in "test-repo". |
| KeywordFacts.TestRepoMisses18To23 | __tests__/utils.test.js:23-28 | Keys 18-23 do not occur in "test-repo". |
| KeywordFacts.TestRepoMisses24To29 | __tests__/utils.test.js:29-34 | Keys 24-29 do not occur in "test-repo". |
| KeywordFacts.TestRepoMisses30To35 | __tests__/utils.test.js:35-40 | Keys 30-35 do not occur in "test-repo". |
| KeywordFacts.TestRepoMisses36To41 | __tests__/utils.test.js:41-46 | Keys 36-41 do not occur in "test-repo". |
| KeywordFacts.TableKeys | __tests__/utils.test.js:4-47 | The table's keys are the 42 keywords, in insertion order. |
| KeywordFacts.UnknownTechIsNoKey | __tests__/utils.test.js:121 | "unknown-tech" is not a key. |
| KeywordFacts.TestRepoMissesKey | __tests__/utils.test.js:4-47 | No keyword occurs in "test-repo". |
| KeywordFacts.TestRepoMissesAll | __tests__/utils.test.js:60-69 | No table entry's lower-cased key occurs in "test-repo". |
| KeywordFacts.UnknownTopicYieldsNothing | __tests__/utils.test.js:121 | The topic "unknown-tech" gives no topic label. |
| KeywordFacts.TestRepoNameAddsNothing | __tests__/utils.test.js:122 | The name "test-repo" adds no label. |
| KeywordFacts.UnknownTechnologiesYieldNothing | __tests__/utils.test.js:119-127 | Topics ["unknown-tech"] on "test-repo" give exactly []. |
| PrototypeLookup.Truthy | __tests__/utils.test.js:53 | JavaScript truthiness of a read value: a label is truthy when non-empty, an inherited member (a function or an object) always. `PrototypeLookup.InheritedTopicAnywhere` and `PrototypeLookup.AsWrittenAgreesOffPrototype` depend on it. |
| PrototypeLookup.PropertyGet | __tests__/utils.test.js:53-54 | `techKeywords[k]` as JavaScript evaluates it: an own property first, then an inherited `Object.prototype` member, else `undefined`. |
| PrototypeLookup.TopicValuesAsWritten | __tests__/utils.test.js:50-56 | The topic phase as written: every topic whose lower-cased form reads a truthy value pushes that value. Specified by `PrototypeLookup.AsWrittenAgreesOffPrototype`, `PrototypeLookup.TopicValuesAsWrittenConcat`, `PrototypeLookup.InheritedTopicAnywhere` and `PrototypeLookup.InheritedTopicLeaks`. |
| PrototypeLookup.AsWrittenAgreesOffPrototype | __tests__/utils.test.js:51-56 | The bracket-read topic phase, as written, pushes exactly the own-property labels, provided no topic lower-cases to an inherited member name. |
| PrototypeLookup.OnlyLowerCaseMembersReachable | __tests__/utils.test.js:52-53 | Because the topic is lower-cased first, it can name an inherited member only if it is "constructor" or "__proto__". The camel-case members cannot be reached. |
| PrototypeLookup.HasUpperIsNotLower | __tests__/utils.test.js:52 | A string containing an upper-case letter is not its own lower-case form. |
| PrototypeLookup.ConstructorIsNoKey | __tests__/utils.test.js:4-47 | "constructor" is not one of the table's own keys. |
| PrototypeLookup.ProtoIsNoKey | __tests__/utils.test.js:4-47 | "__proto__" is not one of the table's own keys. |
| PrototypeLookup.ConstructorLowers | __tests__/utils.test.js:52 | "Constructor" lower-cases to "constructor". |
| PrototypeLookup.InheritedTopicLeaks | __tests__/utils.test.js:53-54 | A single topic that is no key but names an inherited member makes the code as written push that member. The own-property reading pushes nothing. |
| PrototypeLookup.TopicValuesAsWrittenConcat | __tests__/utils.test.js:51-56 | The as-written topic phase of a concatenated topic list is the concatenation of the two phases, as `forEach` visits the topics in order. |
| PrototypeLookup.InheritedTopicAnywhere | __tests__/utils.test.js:53-54 | A topic at any position of any list that is no key but lower-cases to an inherited member name makes the code as written push that member. |
| PrototypeLookup.ConstructorNotFound | __tests__/utils.test.js:53 | The own lookup of "constructor" fails, but the name is an inherited member. |
| PrototypeLookup.ConstructorTopicLeaks | __tests__/utils.test.js:53-54 | Topics ["Constructor"]: as written, the inherited `constructor` function is pushed. The corrected phase yields []. |
| PrototypeLookup.ProtoNotFound | __tests__/utils.test.js:53 | The own lookup of "__proto__" fails, but the name is an inherited member. |
| PrototypeLookup.ProtoTopicLeaks | __tests__/utils.test.js:53-54 | Topics ["__proto__"]: as written, `Object.prototype` itself is pushed. The corrected phase yields []. |
| PrototypeLookup.CorrectedPushesOnlyLabels | __tests__/utils.test.js:53-54 | The corrected topic phase pushes only labels the table carries, never an inherited value. |
| Ascii.LowerStr | pages/index.js:40-42 | `toLowerCase` on ASCII. It preserves the length; `Ascii.LowerStrSpec` gives it character by character. |
| Ascii.Includes | pages/index.js:50 | `String.prototype.includes`. Specified by `Ascii.IncludesOccurs`. |
| Seqs.Filter | pages/index.js:83-86 | `Array.prototype.filter`: the result is a subsequence of the input, holding exactly the members that pass the test. |
| Ascii.LowerStrSpec | pages/index.js:40-42 | Lower-casing maps each character to its lower-case form and leaves other characters alone. |
| Ascii.LowerStrIdempotent | pages/index.js:40-42 | Lower-casing twice equals lower-casing once. |
| Ascii.IncludesOccurs | pages/index.js:50 | `includes` succeeds if and only if the needle occurs at some position. |
| Ascii.IncludesLower | __tests__/utils.test.js:61-63 | A substring stays a substring after both sides are lower-cased. |
| Seqs.FilterCount | pages/index.js:83 | `filter` keeps every occurrence of each element that passes and none of the others. |
| Seqs.FilterWeaker | pages/index.js:83-86 | Filtering with a weaker test keeps a supersequence. |
| Seqs.FilterConcat | pages/index.js:94-95 | `filter` distributes over `[...prev, tech]`. |
| Seqs.SubsequenceNoDups | pages/index.js:94 | A subsequence of a duplicate-free list is duplicate-free. |

## Left out

- Fetching: the GitHub API request, its JSON decoding, the loading flag and the error logging are I/O. The model starts from the decoded list.
- React state and effects are not modelled, including the re-run of `filterRepos` whenever the list or the selection changes. Each operation is a pure function from the old state to the new one.
- Rendering is not modelled: JSX, the repository cards, stars, dates, links and the style blocks.
- The "Clear All" button is displayed only when the selection is non-empty. `ClearAll` is modelled as callable on any selection; it has the same effect either way.
- Lower-casing covers ASCII letters only. JavaScript's `toLowerCase` folds all of Unicode.
- A repository without a `name` makes the page's `repo.name.toLowerCase()` throw a TypeError. The model types `Repo.name` as a required string, so this error path does not exist in it.
- Values of the wrong JSON type are not modelled: a non-string topic, language or description, or a non-array topic list on the page. In the test classifier, a topic list that is not an array is `None`.
- The test classifier's `repo.name` is modelled as absent or a string. A truthy name that is not a string would throw and is not modelled.
- Pinned-repository ranking, pagination and theme persistence do not appear in the page's code and are not modelled.
- The accessibility and page-rendering tests exercise the rendered page, not the logic, and are not modelled.
- KeywordClassifier.DetectKeywords models the own-property read that the test file evidently intends, not the bracket read as written. So its specifying lemmas, `KeywordClassifier.DetectWithSpec` and `KeywordFacts.DetectKeywordsLabels`, promise table labels only, while the code as written also returns inherited values for topics that lower-case to "constructor" or "__proto__" (see Findings). The as-written read is modelled only for the topic phase, in `PrototypeLookup.TopicValuesAsWritten`. The name phase needs no such model: its `includes` check compares a table label against the labels already pushed, and a pushed function or object never equals a string.
- KeywordClassifier.DetectWith matches JavaScript only for tables whose keys are distinct. For an object literal with a repeated key, JavaScript keeps the last value at the first key's position, whereas `Lookup` takes the first entry's label and `NamePass` visits every entry. The 42-entry table `TechKeywords` has distinct keys, so `DetectKeywords` is unaffected; this is not stated as a lemma.
- KeywordClassifier.NamePassSpec: the order clause (a subsequence of the table's labels) pins the order of the added labels only when equal labels sit next to each other in the table. That holds for `TechKeywords`, whose repeated labels (Next.js at entries 1-2, React Native at 40-41) are adjacent. For a table such as A, B, A it admits an order other than the one computed. The same holds for `KeywordClassifier.DetectWithSpec` and `KeywordFacts.DetectKeywordsLabels`.

## Findings

| source | as written | input that shows it | evidently intended | confidence | as-written member | corrected member |
|---|---|---|---|---|---|---|
| __tests__/utils.test.js:53-54 | `techKeywords[normalizedTopic]` is an ordinary property read. It also finds members a plain object inherits from `Object.prototype`, so a topic that lower-cases to "constructor" or "__proto__" is treated as recognised. The first pushes the `Object` function as a "technology", the second pushes `Object.prototype`. The camel-case members such as `toString` cannot be reached, because the topic is lower-cased first. | topics `["Constructor"]`: the topic phase returns a one-element list holding the `Object` constructor function instead of `[]`. With a name that holds no key, such as "test-repo" (`{name: "test-repo", topics: ["Constructor"]}`), that list is the classifier's whole result. | read only the object's own properties (`Object.hasOwn`, or a `Map`), so that only table labels come out | not executed; high | PrototypeLookup.ConstructorTopicLeaks | PrototypeLookup.CorrectedPushesOnlyLabels |

=== FILE: ascii.dfy ===
/**
 This module models the two JavaScript string operations the classifiers rely on:
 `String.prototype.toLowerCase` (restricted to ASCII case folding) and
 `String.prototype.includes` (substring search).
 */
module Ascii {

  /** True if `c` is an ASCII upper-case letter. */
  predicate IsUpper(c: char) {
    'A' <= c <= 'Z'
  }

  /** ASCII case folding of one character; every other character is left alone. */
  function Lower(c: char): (d: char)
    ensures !IsUpper(d)
    ensures !IsUpper(c) ==> d == c
  {
    if IsUpper(c) then (c as int + 32) as char else c
  }

  /** True if no character of `s` is an ASCII upper-case letter. */
  predicate IsLowerStr(s: string) {
    forall i :: 0 <= i < |s| ==> !IsUpper(s[i])
  }

  /** `s.toLowerCase()`, restricted to ASCII: each character is folded by `Lower`. */
  function LowerStr(s: string): (r: string)
    ensures |r| == |s|
  {
    if |s| == 0 then [] else [Lower(s[0])] + LowerStr(s[1..])
  }

  /** The lower-cased string holds no upper-case letter and agrees with the original at
      every position that was not upper case; the upper-case letters are folded. */
  lemma {:induction false} LowerStrSpec(s: string)
    ensures IsLowerStr(LowerStr(s))
    ensures forall i :: 0 <= i < |s| && !IsUpper(s[i]) ==> LowerStr(s)[i] == s[i]
    ensures forall i :: 0 <= i < |s| ==> LowerStr(s)[i] == Lower(s[i])
  {
    if |s| > 0 {
      LowerStrSpec(s[1..]);
      var r := LowerStr(s);
      assert forall i :: 0 < i < |s| ==> r[i] == LowerStr(s[1..])[i - 1] && s[i] == s[1..][i - 1];
    }
  }

  /** Lower-casing is idempotent, and a string without upper-case letters is its own
      lower-case form. */
  lemma {:induction false} LowerStrOfLower(s: string)
    requires IsLowerStr(s)
    ensures LowerStr(s) == s
  {
    if |s| > 0 {
      assert IsLowerStr(s[1..]) by {
        forall i | 0 <= i < |s[1..]| ensures !IsUpper(s[1..][i]) {
          assert s[1..][i] == s[i + 1];
        }
      }
      LowerStrOfLower(s[1..]);
      assert s == [s[0]] + s[1..];
    }
  }

  /** Lower-casing twice is the same as lower-casing once. */
  lemma LowerStrIdempotent(s: string)
    ensures LowerStr(LowerStr(s)) == LowerStr(s)
  {
    LowerStrSpec(s);
    LowerStrOfLower(LowerStr(s));
  }

  /** `needle` occurs in `hay` starting at position `i`. */
  ghost predicate OccursAt(hay: string, needle: string, i: int) {
    0 <= i && i + |needle| <= |hay| && hay[i..i + |needle|] == needle
  }

  /** `hay` begins with `needle`, compared character by character. */
  predicate StartsWith(hay: string, needle: string) {
    |needle| == 0 || (|hay| > 0 && hay[0] == needle[0] && StartsWith(hay[1..], needle[1..]))
  }

  /** `hay.includes(needle)`: `needle` is a prefix of some suffix of `hay`. */
  predicate Includes(hay: string, needle: string)
    decreases |hay|
  {
    StartsWith(hay, needle) || (|hay| > 0 && Includes(hay[1..], needle))
  }

  /** The character-by-character prefix test agrees with comparing the prefix slice. */
  lemma {:induction false} StartsWithSlice(hay: string, needle: string)
    ensures StartsWith(hay, needle) <==> |needle| <= |hay| && hay[..|needle|] == needle
  {
    if |needle| > 0 && |hay| > 0 {
      StartsWithSlice(hay[1..], needle[1..]);
      if hay[0] == needle[0] && |needle| <= |hay| {
        assert hay[..|needle|] == [hay[0]] + hay[1..][..|needle| - 1];
        assert needle == [needle[0]] + needle[1..];
      }
    }
  }

  /** `Includes` holds exactly when `needle` occurs at some position of `hay`, which is
      what JavaScript's `includes` promises; the empty needle is found in every string. */
  lemma {:induction false} IncludesOccurs(hay: string, needle: string)
    ensures Includes(hay, needle) <==> exists i :: OccursAt(hay, needle, i)
    decreases |hay|
  {
    StartsWithSlice(hay, needle);
    if StartsWith(hay, needle) {
      assert OccursAt(hay, needle, 0);
    } else if |hay| > 0 {
      IncludesOccurs(hay[1..], needle);
      ShiftOccurrence(hay, needle);
    } else {
      assert forall i :: !OccursAt(hay, needle, i);
    }
  }

  /** An occurrence in `hay` other than at 0 is an occurrence in `hay[1..]`, one place to the left. */
  lemma ShiftOccurrence(hay: string, needle: string)
    requires |hay| > 0
    requires !OccursAt(hay, needle, 0)
    ensures (exists i :: OccursAt(hay, needle, i)) <==> (exists i :: OccursAt(hay[1..], needle, i))
  {
    forall i | OccursAt(hay, needle, i) ensures OccursAt(hay[1..], needle, i - 1) {
      assert hay[1..][i - 1..i - 1 + |needle|] == hay[i..i + |needle|];
    }
    forall i | OccursAt(hay[1..], needle, i) ensures OccursAt(hay, needle, i + 1) {
      assert hay[1..][i..i + |needle|] == hay[i + 1..i + 1 + |needle|];
    }
  }

  /** A substring of a string is still found after both are lower-cased. */
  lemma IncludesLower(hay: string, needle: string)
    requires Includes(hay, needle)
    ensures Includes(LowerStr(hay), LowerStr(needle))
  {
    IncludesOccurs(hay, needle);
    var i :| OccursAt(hay, needle, i);
    var lh := LowerStr(hay);
    var ln := LowerStr(needle);
    LowerStrSpec(hay);
    LowerStrSpec(needle);
    assert lh[i..i + |ln|] == ln by {
      forall k | 0 <= k < |ln| ensures lh[i..i + |ln|][k] == ln[k] {
        assert hay[i..i + |needle|][k] == needle[k];
      }
    }
    assert OccursAt(lh, ln, i);
    IncludesOccurs(lh, ln);
  }

  /** A needle holding a character that `hay` lacks is not found in `hay`. */
  lemma AbsentChar(hay: string, needle: string, j: nat)
    requires j < |needle| && needle[j] !in hay
    ensures !Includes(hay, needle)
  {
    IncludesOccurs(hay, needle);
  }

  /** A keyword holding a character, not an upper-case letter, that `hay` lacks is not
      found in `hay` after lower-casing. */
  lemma AbsentFoldedChar(hay: string, key: string, j: nat)
    requires j < |key| && !IsUpper(key[j]) && key[j] !in hay
    ensures !Includes(hay, LowerStr(key))
  {
    LowerStrSpec(key);
    AbsentChar(hay, LowerStr(key), j);
  }
}

=== FILE: keywords.dfy ===
/**
 The table-driven technology classifier exercised by the unit tests: topics are looked up
 in a keyword table after lower-casing, then every keyword of the table that occurs in the
 lower-cased repository name adds its label, unless that label is already present.
 */
module KeywordClassifier {
  import opened Wrappers
  import opened Ascii
  import opened Seqs

  /** One property of the keyword object: a keyword and the label it stands for. */
  datatype Entry = Entry(key: string, tech: string)

  /** The keyword object, its properties in insertion order (which is the order
      `Object.keys` lists them in, none of the keys being an array index). */
  const TechKeywords: seq<Entry> := [
    Entry("react", "React"),
    Entry("nextjs", "Next.js"),
    Entry("next.js", "Next.js"),
    Entry("typescript", "TypeScript"),
    Entry("javascript", "JavaScript"),
    Entry("vue", "Vue"),
    Entry("angular", "Angular"),
    Entry("svelte", "Svelte"),
    Entry("node", "Node.js"),
    Entry("express", "Express"),
    Entry("mongodb", "MongoDB"),
    Entry("postgres", "PostgreSQL"),
    Entry("mysql", "MySQL"),
    Entry("graphql", "GraphQL"),
    Entry("tailwind", "Tailwind"),
    Entry("bootstrap", "Bootstrap"),
    Entry("sass", "Sass"),
    Entry("firebase", "Firebase"),
    Entry("aws", "AWS"),
    Entry("docker", "Docker"),
    Entry("kubernetes", "Kubernetes"),
    Entry("jekyll", "Jekyll"),
    Entry("hugo", "Hugo"),
    Entry("gatsby", "Gatsby"),
    Entry("wordpress", "WordPress"),
    Entry("php", "PHP"),
    Entry("laravel", "Laravel"),
    Entry("python", "Python"),
    Entry("django", "Django"),
    Entry("flask", "Flask"),
    Entry("ruby", "Ruby"),
    Entry("rails", "Rails"),
    Entry("go", "Go"),
    Entry("rust", "Rust"),
    Entry("java", "Java"),
    Entry("spring", "Spring"),
    Entry("kotlin", "Kotlin"),
    Entry("swift", "Swift"),
    Entry("flutter", "Flutter"),
    Entry("dart", "Dart"),
    Entry("react_native", "React Native"),
    Entry("react-native", "React Native")
  ]

  /** The keys of a table, in order. */
  function KeysOf(table: seq<Entry>): (ks: seq<string>)
    ensures |ks| == |table|
    ensures forall i :: 0 <= i < |table| ==> ks[i] == table[i].key
  {
    seq(|table|, i requires 0 <= i < |table| => table[i].key)
  }

  /** The labels of a table, in order. */
  function TechsOf(table: seq<Entry>): (ts: seq<string>)
    ensures |ts| == |table|
    ensures forall i :: 0 <= i < |table| ==> ts[i] == table[i].tech
  {
    seq(|table|, i requires 0 <= i < |table| => table[i].tech)
  }

  /** Reading the own property `k` of the keyword object: the label of the first entry
      with that key, or nothing. */
  function Lookup(table: seq<Entry>, k: string): Option<string>
    decreases |table|
  {
    if |table| == 0 then None
    else if table[0].key == k then Some(table[0].tech)
    else Lookup(table[1..], k)
  }

  /** A lookup finds a label exactly when the key is in the table, and the label it finds
      belongs to an entry with that key. */
  lemma {:induction false} LookupSpec(table: seq<Entry>, k: string)
    ensures Lookup(table, k).Some? <==> k in KeysOf(table)
    ensures Lookup(table, k).Some? ==>
              exists i :: 0 <= i < |table| && table[i] == Entry(k, Lookup(table, k).value)
    decreases |table|
  {
    if |table| > 0 && table[0].key != k {
      LookupSpec(table[1..], k);
      assert KeysOf(table) == [table[0].key] + KeysOf(table[1..]);
      if Lookup(table, k).Some? {
        var i :| 0 <= i < |table[1..]| && table[1..][i] == Entry(k, Lookup(table, k).value);
        assert table[i + 1] == table[1..][i];
      }
    } else if |table| > 0 {
      assert table[0] == Entry(k, Lookup(table, k).value);
    }
  }

  /** The entry at `i` is the first with its key, so looking its key up yields its label. */
  lemma {:induction false} LookupFirst(table: seq<Entry>, i: nat)
    requires i < |table|
    requires forall j :: 0 <= j < i ==> table[j].key != table[i].key
    ensures Lookup(table, table[i].key) == Some(table[i].tech)
    decreases i
  {
    if i > 0 {
      forall j | 0 <= j < i - 1 ensures table[1..][j].key != table[1..][i - 1].key {
        assert table[1..][j] == table[j + 1];
      }
      LookupFirst(table[1..], i - 1);
      assert table[1..][i - 1] == table[i];
    }
  }

  /** The labels one topic contributes: the label of its lower-cased form, when that label
      is truthy (a non-empty string). */
  function TopicLabel(table: seq<Entry>, topic: string): seq<string> {
    match Lookup(table, LowerStr(topic))
    case Some(t) => if |t| > 0 then [t] else []
    case None => []
  }

  /** The topic phase: each topic in order adds its label, duplicates included. */
  function TopicLabels(table: seq<Entry>, topics: seq<string>): seq<string>
    decreases |topics|
  {
    if |topics| == 0 then [] else TopicLabel(table, topics[0]) + TopicLabels(table, topics[1..])
  }

  /** The name phase: each entry in key order adds its label when its lower-cased key occurs
      in `name` and the label is not yet in `acc`. */
  function NamePass(table: seq<Entry>, name: string, acc: seq<string>): seq<string>
    decreases |table|
  {
    if |table| == 0 then acc
    else
      var e := table[0];
      var next := if Includes(name, LowerStr(e.key)) && e.tech !in acc then acc + [e.tech] else acc;
      NamePass(table[1..], name, next)
  }

  /** One topic contributes at most one label: the truthy label its lower-cased form reads,
      which is one of the table's labels. */
  lemma TopicLabelSpec(table: seq<Entry>, topic: string)
    ensures |TopicLabel(table, topic)| <= 1
    ensures forall l :: l in TopicLabel(table, topic) <==>
              Lookup(table, LowerStr(topic)) == Some(l) && |l| > 0
    ensures forall l :: l in TopicLabel(table, topic) ==> l in TechsOf(table)
  {
    LookupSpec(table, LowerStr(topic));
    var head := TopicLabel(table, topic);
    if head != [] {
      var i :| 0 <= i < |table| && table[i] == Entry(LowerStr(topic), head[0]);
      assert TechsOf(table)[i] == head[0];
    }
  }

  /** The topic phase keeps one label per recognised topic, in topic order: a label comes
      out exactly when some topic lower-cases to a key carrying it, and it is one of the
      table's labels. */
  lemma {:induction false} TopicLabelsSpec(table: seq<Entry>, topics: seq<string>)
    ensures |TopicLabels(table, topics)| <= |topics|
    ensures forall l :: l in TopicLabels(table, topics) <==>
              exists i :: 0 <= i < |topics| && Lookup(table, LowerStr(topics[i])) == Some(l) && |l| > 0
    ensures forall l :: l in TopicLabels(table, topics) ==> l in TechsOf(table)
    decreases |topics|
  {
    if |topics| > 0 {
      TopicLabelsSpec(table, topics[1..]);
      TopicLabelSpec(table, topics[0]);
      assert forall i :: 0 < i < |topics| ==> topics[i] == topics[1..][i - 1];
      assert forall i :: 0 <= i < |topics| - 1 ==> topics[1..][i] == topics[i + 1];
    }
  }

  /** The topic phase distributes over concatenation of the topic lists: each topic is
      looked up on its own and nothing is de-duplicated. */
  lemma {:induction false} TopicLabelsConcat(table: seq<Entry>, a: seq<string>, b: seq<string>)
    ensures TopicLabels(table, a + b) == TopicLabels(table, a) + TopicLabels(table, b)
    decreases |a|
  {
    if |a| == 0 {
      assert a + b == b;
    } else {
      TopicLabelsConcat(table, a[1..], b);
      assert (a + b)[1..] == a[1..] + b;
      assert (a + b)[0] == a[0];
    }
  }

  /** The name phase only appends: `acc` is kept as a prefix, the labels it adds are new
      and pairwise distinct and come in table (`Object.keys`) order, and a label ends up in
      the result exactly when it was in `acc` or some entry carrying it has its lower-cased
      key inside `name`. The order clause fixes the order only for tables whose equal labels
      are adjacent, as they are in `TechKeywords`. */
  lemma {:induction false} NamePassSpec(table: seq<Entry>, name: string, acc: seq<string>)
    ensures |acc| <= |NamePass(table, name, acc)|
    ensures NamePass(table, name, acc)[..|acc|] == acc
    ensures IsSubsequence(NamePass(table, name, acc)[|acc|..], TechsOf(table))
    ensures NoDups(NamePass(table, name, acc)[|acc|..])
    ensures forall l :: l in NamePass(table, name, acc)[|acc|..] ==> l !in acc
    ensures forall l :: l in NamePass(table, name, acc) <==>
              l in acc
              || exists i :: 0 <= i < |table| && table[i].tech == l && Includes(name, LowerStr(table[i].key))
    decreases |table|
  {
    if |table| > 0 {
      var e := table[0];
      var next := if Includes(name, LowerStr(e.key)) && e.tech !in acc then acc + [e.tech] else acc;
      var r := NamePass(table, name, acc);
      assert r == NamePass(table[1..], name, next);
      NamePassSpec(table[1..], name, next);
      assert forall i :: 0 < i < |table| ==> table[i] == table[1..][i - 1];
      assert forall i :: 0 <= i < |table| - 1 ==> table[1..][i] == table[i + 1];
      assert TechsOf(table)[1..] == TechsOf(table[1..]);
      if next == acc {
        SubsequenceOfTail(r[|acc|..], TechsOf(table));
      } else {
        assert r[..|next|] == next;
        assert r[..|acc|] == next[..|acc|] == acc;
        assert r[|acc|..] == [e.tech] + r[|next|..];
        SubsequenceOfTail(r[|next|..], TechsOf(table));
        forall l | l in r[|acc|..] ensures l !in acc {
          if l != e.tech {
            assert l in r[|next|..];
          }
        }
        assert NoDups(r[|acc|..]) by {
          var s := r[|acc|..];
          forall i, j | 0 <= i < j < |s| ensures s[i] != s[j] {
            assert s[j] == r[|next|..][j - 1];
            if i > 0 {
              assert s[i] == r[|next|..][i - 1];
            } else {
              assert s[i] == e.tech && e.tech in next;
            }
          }
        }
      }
    }
  }

  /** A repository object as the unit tests build it. `topics` is `None` when the field is
      absent or not an array; `name` is `None` when the field is absent. */
  datatype TestRepo = TestRepo(name: Option<string>, topics: Option<seq<string>>)

  /** The labels gathered from the topics, when they form an array. */
  function TopicPhase(table: seq<Entry>, repo: TestRepo): seq<string> {
    if repo.topics.Some? then TopicLabels(table, repo.topics.value) else []
  }

  /** The classifier over a given keyword table: the topic phase, then the name phase when
      the name is a non-empty (truthy) string. */
  function DetectWith(table: seq<Entry>, repo: TestRepo): seq<string> {
    var fromTopics := TopicPhase(table, repo);
    if repo.name.Some? && |repo.name.value| > 0 then
      NamePass(table, LowerStr(repo.name.value), fromTopics)
    else fromTopics
  }

  /** The test file's `detectTechnology`. */
  function DetectKeywords(repo: TestRepo): seq<string> {
    DetectWith(TechKeywords, repo)
  }

  /** The classifier's result: the topic labels first, then the labels the name adds, which
      are new, pairwise distinct and in table order (which fixes their order when equal labels
      are adjacent in the table); a label comes out exactly when a topic or (for a truthy
      name) a keyword inside the name yields it, and it is always one of the table's labels. */
  lemma DetectWithSpec(table: seq<Entry>, repo: TestRepo)
    ensures |TopicPhase(table, repo)| <= |DetectWith(table, repo)|
    ensures DetectWith(table, repo)[..|TopicPhase(table, repo)|] == TopicPhase(table, repo)
    ensures IsSubsequence(DetectWith(table, repo)[|TopicPhase(table, repo)|..], TechsOf(table))
    ensures NoDups(DetectWith(table, repo)[|TopicPhase(table, repo)|..])
    ensures forall l :: l in DetectWith(table, repo)[|TopicPhase(table, repo)|..] ==> l !in TopicPhase(table, repo)
    ensures forall l :: l in DetectWith(table, repo) <==>
              l in TopicPhase(table, repo)
              || (repo.name.Some? && |repo.name.value| > 0
                  && exists i :: 0 <= i < |table| && table[i].tech == l
                                 && Includes(LowerStr(repo.name.value), LowerStr(table[i].key)))
    ensures forall l :: l in DetectWith(table, repo) ==> l in TechsOf(table)
  {
    var p := TopicPhase(table, repo);
    if repo.topics.Some? {
      TopicLabelsSpec(table, repo.topics.value);
    }
    if repo.name.Some? && |repo.name.value| > 0 {
      NamePassSpec(table, LowerStr(repo.name.value), p);
      forall l | l in DetectWith(table, repo) && l !in p ensures l in TechsOf(table) {
        var i :| 0 <= i < |table| && table[i].tech == l
                 && Includes(LowerStr(repo.name.value), LowerStr(table[i].key));
        assert TechsOf(table)[i] == l;
      }
    } else {
      assert DetectWith(table, repo)[|p|..] == [];
    }
  }

  /** Topics that lower-case alike give the same topic labels. */
  lemma {:induction false} TopicLabelsSameLower(table: seq<Entry>, a: seq<string>, b: seq<string>)
    requires |a| == |b|
    requires forall i :: 0 <= i < |a| ==> LowerStr(a[i]) == LowerStr(b[i])
    ensures TopicLabels(table, a) == TopicLabels(table, b)
    decreases |a|
  {
    if |a| > 0 {
      assert forall i :: 0 <= i < |a| - 1 ==> a[1..][i] == a[i + 1] && b[1..][i] == b[i + 1];
      TopicLabelsSameLower(table, a[1..], b[1..]);
    }
  }

  /** The classifier is case-insensitive in both fields: two repositories whose names and
      topics lower-case alike (and are alike in presence and truthiness) get the same labels. */
  lemma DetectWithCaseInsensitive(table: seq<Entry>, a: TestRepo, b: TestRepo)
    requires (a.name.Some? && |a.name.value| > 0) == (b.name.Some? && |b.name.value| > 0)
    requires a.name.Some? && |a.name.value| > 0 ==> LowerStr(a.name.value) == LowerStr(b.name.value)
    requires a.topics.Some? == b.topics.Some?
    requires a.topics.Some? ==> |a.topics.value| == |b.topics.value|
    requires a.topics.Some? ==>
               forall i :: 0 <= i < |a.topics.value| ==> LowerStr(a.topics.value[i]) == LowerStr(b.topics.value[i])
    ensures DetectWith(table, a) == DetectWith(table, b)
  {
    if a.topics.Some? {
      TopicLabelsSameLower(table, a.topics.value, b.topics.value);
    }
  }

  /** A topic that lower-cases to the first entry with a given key contributes that entry's
      (non-empty) label to the result. */
  lemma TopicYields(table: seq<Entry>, repo: TestRepo, i: nat, j: nat)
    requires repo.topics.Some? && i < |repo.topics.value| && j < |table|
    requires LowerStr(repo.topics.value[i]) == table[j].key
    requires forall m :: 0 <= m < j ==> table[m].key != table[j].key
    requires |table[j].tech| > 0
    ensures table[j].tech in DetectWith(table, repo)
  {
    LookupFirst(table, j);
    TopicLabelsSpec(table, repo.topics.value);
    DetectWithSpec(table, repo);
  }

  /** A truthy name containing an entry's lower-cased key gets that entry's label. */
  lemma NameYields(table: seq<Entry>, repo: TestRepo, j: nat)
    requires repo.name.Some? && |repo.name.value| > 0 && j < |table|
    requires Includes(LowerStr(repo.name.value), LowerStr(table[j].key))
    ensures table[j].tech in DetectWith(table, repo)
  {
    DetectWithSpec(table, repo);
  }

  /** Topics none of which lower-cases to a key contribute no labels. */
  lemma {:induction false} TopicLabelsNone(table: seq<Entry>, topics: seq<string>)
    requires forall i :: 0 <= i < |topics| ==> LowerStr(topics[i]) !in KeysOf(table)
    ensures TopicLabels(table, topics) == []
    decreases |topics|
  {
    if |topics| > 0 {
      LookupSpec(table, LowerStr(topics[0]));
      assert forall i :: 0 <= i < |topics| - 1 ==> topics[1..][i] == topics[i + 1];
      TopicLabelsNone(table, topics[1..]);
    }
  }

  /** A name containing no lower-cased key leaves the accumulated labels as they are. */
  lemma {:induction false} NamePassNone(table: seq<Entry>, name: string, acc: seq<string>)
    requires forall j :: 0 <= j < |table| ==> !Includes(name, LowerStr(table[j].key))
    ensures NamePass(table, name, acc) == acc
    decreases |table|
  {
    if |table| > 0 {
      assert forall j :: 0 <= j < |table| - 1 ==> table[1..][j] == table[j + 1];
      NamePassNone(table[1..], name, acc);
    }
  }

  /** When no topic lower-cases to a key and no lower-cased key occurs in the name, the
      classifier reports nothing. */
  lemma NothingRecognised(table: seq<Entry>, repo: TestRepo)
    requires repo.topics.Some? ==>
               forall i :: 0 <= i < |repo.topics.value| ==> LowerStr(repo.topics.value[i]) !in KeysOf(table)
    requires repo.name.Some? && |repo.name.value| > 0 ==>
               forall j :: 0 <= j < |table| ==> !Includes(LowerStr(repo.name.value), LowerStr(table[j].key))
    ensures DetectWith(table, repo) == []
  {
    if repo.topics.Some? {
      TopicLabelsNone(table, repo.topics.value);
    }
    if repo.name.Some? && |repo.name.value| > 0 {
      NamePassNone(table, LowerStr(repo.name.value), TopicPhase(table, repo));
    }
  }
}

=== FILE: keywords_facts.dfy ===
/**
 The unit tests of the table-driven classifier, stated as lemmas about the model, and the
 facts about the keyword table they rely on.

 Lemmas about a particular literal (a string, a table index or a record) take it as a
 parameter constrained by `requires x == ...` rather than naming it in their `ensures`.
 Callers then see only the stated fact and never unfold the literal, or the 42-entry
 keyword table, in their own proof obligations.
 */
module KeywordFacts {
  import opened Wrappers
  import opened Ascii
  import opened Seqs
  import opened KeywordClassifier

  /** Every label the classifier reports is a value of the keyword table; the topic labels
      come first and the name adds only labels not yet present, each once, in table order; a
      label is reported exactly when a topic or a key inside the truthy name yields it. */
  lemma DetectKeywordsLabels(repo: TestRepo)
    ensures forall l :: l in DetectKeywords(repo) ==> l in TechsOf(TechKeywords)
    ensures |TopicPhase(TechKeywords, repo)| <= |DetectKeywords(repo)|
    ensures DetectKeywords(repo)[..|TopicPhase(TechKeywords, repo)|] == TopicPhase(TechKeywords, repo)
    ensures IsSubsequence(DetectKeywords(repo)[|TopicPhase(TechKeywords, repo)|..], TechsOf(TechKeywords))
    ensures NoDups(DetectKeywords(repo)[|TopicPhase(TechKeywords, repo)|..])
    ensures forall l :: l in DetectKeywords(repo)[|TopicPhase(TechKeywords, repo)|..] ==>
              l !in TopicPhase(TechKeywords, repo)
    ensures forall l :: l in DetectKeywords(repo) <==>
              l in TopicPhase(TechKeywords, repo)
              || (repo.name.Some? && |repo.name.value| > 0
                  && exists i :: 0 <= i < |TechKeywords| && TechKeywords[i].tech == l
                                 && Includes(LowerStr(repo.name.value), LowerStr(TechKeywords[i].key)))
  {
    DetectWithSpec(TechKeywords, repo);
  }

  /** Entry 0 is "react" (already lower case) with label "React". */
  lemma ReactEntry(i: nat)
    requires i == 0
    ensures TechKeywords[i] == Entry("react", "React")
    ensures LowerStr(TechKeywords[i].key) == "react"
  {
    LowerStrOfLower("react");
  }

  /** Entry 1 is "nextjs", and it is the first entry with its key. */
  lemma NextJsEntry(i: nat)
    requires i == 1
    ensures TechKeywords[i] == Entry("nextjs", "Next.js")
    ensures forall m :: 0 <= m < i ==> TechKeywords[m].key != TechKeywords[i].key
  {
    forall m | 0 <= m < i ensures TechKeywords[m].key != TechKeywords[i].key {
      assert m == 0;
    }
  }

  /** Entry 3 is "typescript", and it is the first entry with its key. */
  lemma TypeScriptEntry(i: nat)
    requires i == 3
    ensures TechKeywords[i] == Entry("typescript", "TypeScript")
    ensures forall m :: 0 <= m < i ==> TechKeywords[m].key != TechKeywords[i].key
  {
    forall m | 0 <= m < i ensures TechKeywords[m].key != TechKeywords[i].key {
      if m == 0 {
      } else if m == 1 {
      } else {
        assert m == 2;
      }
    }
  }

  /** Topics ["react", "javascript"] on "test-repo" yield "React". */
  lemma DetectsReactFromTopics(repo: TestRepo)
    requires repo == TestRepo(Some("test-repo"), Some(["react", "javascript"]))
    ensures "React" in DetectKeywords(repo)
  {
    ReactTopicAnywhere(repo, 0);
  }

  /** Topics ["nextjs", "react"] on "test-repo" yield "Next.js". */
  lemma DetectsNextJsFromTopics(repo: TestRepo)
    requires repo == TestRepo(Some("test-repo"), Some(["nextjs", "react"]))
    ensures "Next.js" in DetectKeywords(repo)
  {
    NextJsTopicAnywhere(repo, 0);
  }

  /** "react-project" contains "react" after lower-casing. */
  lemma ReactProjectName(name: string)
    requires name == "react-project"
    ensures Includes(LowerStr(name), "react")
  {
    LowerStrOfLower(name);
    assert OccursAt(name, "react", 0);
    IncludesOccurs(name, "react");
  }

  /** No topics and the name "react-project" yield "React" through the name. */
  lemma DetectsReactFromName(repo: TestRepo)
    requires repo == TestRepo(Some("react-project"), Some([]))
    ensures "React" in DetectKeywords(repo)
  {
    ReactProjectName(repo.name.value);
    ReactEntry(0);
    NameYields(TechKeywords, repo, 0);
  }

  /** Topics ["react", "typescript", "nextjs"] yield "React", "TypeScript" and "Next.js",
      whatever the name (the test uses "test-repo"). */
  lemma DetectsMultipleTechnologies(repo: TestRepo)
    requires repo.topics == Some(["react", "typescript", "nextjs"])
    ensures "React" in DetectKeywords(repo) && "TypeScript" in DetectKeywords(repo)
            && "Next.js" in DetectKeywords(repo)
  {
    var topics := repo.topics.value;
    assert topics[0] == "react" && topics[1] == "typescript" && topics[2] == "nextjs";
    ReactTopicAnywhere(repo, 0);
    TypeScriptTopicAnywhere(repo, 1);
    NextJsTopicAnywhere(repo, 2);
  }

  /** A topic "react" at any position yields "React". */
  lemma ReactTopicAnywhere(repo: TestRepo, i: nat)
    requires repo.topics.Some? && i < |repo.topics.value| && repo.topics.value[i] == "react"
    ensures "React" in DetectKeywords(repo)
  {
    LowerStrOfLower(repo.topics.value[i]);
    ReactEntry(0);
    TopicYields(TechKeywords, repo, i, 0);
  }

  /** A topic "typescript" at any position yields "TypeScript". */
  lemma TypeScriptTopicAnywhere(repo: TestRepo, i: nat)
    requires repo.topics.Some? && i < |repo.topics.value| && repo.topics.value[i] == "typescript"
    ensures "TypeScript" in DetectKeywords(repo)
  {
    LowerStrOfLower(repo.topics.value[i]);
    TypeScriptEntry(3);
    TopicYields(TechKeywords, repo, i, 3);
  }

  /** A topic "nextjs" at any position yields "Next.js". */
  lemma NextJsTopicAnywhere(repo: TestRepo, i: nat)
    requires repo.topics.Some? && i < |repo.topics.value| && repo.topics.value[i] == "nextjs"
    ensures "Next.js" in DetectKeywords(repo)
  {
    LowerStrOfLower(repo.topics.value[i]);
    NextJsEntry(1);
    TopicYields(TechKeywords, repo, i, 1);
  }

  /** "React" lower-cases to "react". */
  lemma CapitalReactLowers(topic: string)
    requires topic == "React"
    ensures LowerStr(topic) == "react"
  {
    LowerStrSpec(topic);
  }

  /** Topics that lower-case alike each add their label: the topic phase does not
      de-duplicate. */
  lemma TopicPairKept(table: seq<Entry>, t: string, u: string)
    requires LowerStr(t) == LowerStr(u)
    ensures TopicLabels(table, [t, u]) == TopicLabel(table, t) + TopicLabel(table, t)
  {
    assert [t, u][1..] == [u];
    assert [u][1..] == [];
    assert TopicLabels(table, [u]) == TopicLabel(table, u) + TopicLabels(table, []);
    assert TopicLabel(table, u) == TopicLabel(table, t);
  }

  /** The topics ["react", "React"] yield "React" twice. */
  lemma ReactTopicTwice(repo: TestRepo)
    requires repo.topics == Some(["react", "React"])
    ensures TopicPhase(TechKeywords, repo) == ["React", "React"]
  {
    var topics := repo.topics.value;
    assert topics[0] == "react" && topics[1] == "React";
    LowerStrOfLower(topics[0]);
    CapitalReactLowers(topics[1]);
    ReactEntry(0);
    LookupFirst(TechKeywords, 0);
    assert topics == [topics[0], topics[1]];
    TopicPairKept(TechKeywords, topics[0], topics[1]);
  }

  /** Keys 0 to 5 of the table each hold a letter that "test-repo" lacks. */
  lemma TestRepoMisses0To5(hay: string, key: string)
    requires hay == "test-repo"
    requires key in ["react", "nextjs", "next.js", "typescript", "javascript", "vue"]
    ensures !Includes(hay, LowerStr(key))
  {
    if key == "react" {
      AbsentFoldedChar(hay, key, 2);  // 'a'
    } else if key == "nextjs" {
      AbsentFoldedChar(hay, key, 0);  // 'n'
    } else if key == "next.js" {
      AbsentFoldedChar(hay, key, 0);  // 'n'
    } else if key == "typescript" {
      AbsentFoldedChar(hay, key, 1);  // 'y'
    } else if key == "javascript" {
      AbsentFoldedChar(hay, key, 0);  // 'j'
    } else {
      AbsentFoldedChar(hay, key, 0);  // 'v'
    }
  }

  /** Keys 6 to 11 of the table each hold a letter that "test-repo" lacks. */
  lemma TestRepoMisses6To11(hay: string, key: string)
    requires hay == "test-repo"
    requires key in ["angular", "svelte", "node", "express", "mongodb", "postgres"]
    ensures !Includes(hay, LowerStr(key))
  {
    if key == "angular" {
      AbsentFoldedChar(hay, key, 0);  // 'a'
    } else if key == "svelte" {
      AbsentFoldedChar(hay, key, 1);  // 'v'
    } else if key == "node" {
      AbsentFoldedChar(hay, key, 0);  // 'n'
    } else if key == "express" {
      AbsentFoldedChar(hay, key, 1);  // 'x'
    } else if key == "mongodb" {
      AbsentFoldedChar(hay, key, 0);  // 'm'
    } else {
      AbsentFoldedChar(hay, key, 4);  // 'g'
    }
  }

  /** Keys 12 to 17 of the table each hold a letter that "test-repo" lacks. */
  lemma TestRepoMisses12To17(hay: string, key: string)
    requires hay == "test-repo"
    requires key in ["mysql", "graphql", "tailwind", "bootstrap", "sass", "firebase"]
    ensures !Includes(hay, LowerStr(key))
  {
    if key == "mysql" {
      AbsentFoldedChar(hay, key, 0);  // 'm'
    } else if key == "graphql" {
      AbsentFoldedChar(hay, key, 0);  // 'g'
    } else if key == "tailwind" {
      AbsentFoldedChar(hay, key, 1);  // 'a'
    } else if key == "bootstrap" {
      AbsentFoldedChar(hay, key, 0);  // 'b'
    } else if key == "sass" {
      AbsentFoldedChar(hay, key, 1);  // 'a'
    } else {
      AbsentFoldedChar(hay, key, 0);  // 'f'
    }
  }

  /** Keys 18 to 23 of the table each hold a letter that "test-repo" lacks. */
  lemma TestRepoMisses18To23(hay: string, key: string)
    requires hay == "test-repo"
    requires key in ["aws", "docker", "kubernetes", "jekyll", "hugo", "gatsby"]
    ensures !Includes(hay, LowerStr(key))
  {
    if key == "aws" {
      AbsentFoldedChar(hay, key, 0);  // 'a'
    } else if key == "docker" {
      AbsentFoldedChar(hay, key, 0);  // 'd'
    } else if key == "kubernetes" {
      AbsentFoldedChar(hay, key, 0);  // 'k'
    } else if key == "jekyll" {
      AbsentFoldedChar(hay, key, 0);  // 'j'
    } else if key == "hugo" {
      AbsentFoldedChar(hay, key, 0);  // 'h'
    } else {
      AbsentFoldedChar(hay, key, 0);  // 'g'
    }
  }

  /** Keys 24 to 29 of the table each hold a letter that "test-repo" lacks. */
  lemma TestRepoMisses24To29(hay: string, key: string)
    requires hay == "test-repo"
    requires key in ["wordpress", "php", "laravel", "python", "django", "flask"]
    ensures !Includes(hay, LowerStr(key))
  {
    if key == "wordpress" {
      AbsentFoldedChar(hay, key, 0);  // 'w'
    } else if key == "php" {
      AbsentFoldedChar(hay, key, 1);  // 'h'
    } else if key == "laravel" {
      AbsentFoldedChar(hay, key, 0);  // 'l'
    } else if key == "python" {
      AbsentFoldedChar(hay, key, 1);  // 'y'
    } else if key == "django" {
      AbsentFoldedChar(hay, key, 0);  // 'd'
    } else {
      AbsentFoldedChar(hay, key, 0);  // 'f'
    }
  }

  /** Keys 30 to 35 of the table each hold a letter that "test-repo" lacks. */
  lemma TestRepoMisses30To35(hay: string, key: string)
    requires hay == "test-repo"
    requires key in ["ruby", "rails", "go", "rust", "java", "spring"]
    ensures !Includes(hay, LowerStr(key))
  {
    if key == "ruby" {
      AbsentFoldedChar(hay, key, 1);  // 'u'
    } else if key == "rails" {
      AbsentFoldedChar(hay, key, 1);  // 'a'
    } else if key == "go" {
      AbsentFoldedChar(hay, key, 0);  // 'g'
    } else if key == "rust" {
      AbsentFoldedChar(hay, key, 1);  // 'u'
    } else if key == "java" {
      AbsentFoldedChar(hay, key, 0);  // 'j'
    } else {
      AbsentFoldedChar(hay, key, 3);  // 'i'
    }
  }

  /** Keys 36 to 41 of the table each hold a letter that "test-repo" lacks. */
  lemma TestRepoMisses36To41(hay: string, key: string)
    requires hay == "test-repo"
    requires key in ["kotlin", "swift", "flutter", "dart", "react_native", "react-native"]
    ensures !Includes(hay, LowerStr(key))
  {
    if key == "kotlin" {
      AbsentFoldedChar(hay, key, 0);  // 'k'
    } else if key == "swift" {
      AbsentFoldedChar(hay, key, 1);  // 'w'
    } else if key == "flutter" {
      AbsentFoldedChar(hay, key, 0);  // 'f'
    } else if key == "dart" {
      AbsentFoldedChar(hay, key, 0);  // 'd'
    } else if key == "react_native" {
      AbsentFoldedChar(hay, key, 2);  // 'a'
    } else {
      AbsentFoldedChar(hay, key, 2);  // 'a'
    }
  }

  /** The keys of the table, in `Object.keys` order. */
  lemma TableKeys()
    ensures KeysOf(TechKeywords) == [
      "react", "nextjs", "next.js", "typescript", "javascript", "vue", "angular", "svelte",
      "node", "express", "mongodb", "postgres", "mysql", "graphql", "tailwind", "bootstrap",
      "sass", "firebase", "aws", "docker", "kubernetes", "jekyll", "hugo", "gatsby",
      "wordpress", "php", "laravel", "python", "django", "flask", "ruby", "rails", "go",
      "rust", "java", "spring", "kotlin", "swift", "flutter", "dart", "react_native",
      "react-native"]
  {
  }

  /** "unknown-tech" is not a key of the table. */
  lemma UnknownTechIsNoKey()
    ensures "unknown-tech" !in KeysOf(TechKeywords)
  {
    TableKeys();
  }

  /** No lower-cased key of the table occurs in "test-repo". */
  lemma TestRepoMissesKey(hay: string, key: string)
    requires hay == "test-repo"
    requires key in [
        "react", "nextjs", "next.js", "typescript", "javascript", "vue", "angular", "svelte",
        "node", "express", "mongodb", "postgres", "mysql", "graphql", "tailwind", "bootstrap",
        "sass", "firebase", "aws", "docker", "kubernetes", "jekyll", "hugo", "gatsby",
        "wordpress", "php", "laravel", "python", "django", "flask", "ruby", "rails", "go",
        "rust", "java", "spring", "kotlin", "swift", "flutter", "dart", "react_native",
        "react-native"]
    ensures !Includes(hay, LowerStr(key))
  {
    if key in ["react", "nextjs", "next.js", "typescript", "javascript", "vue"] {
      TestRepoMisses0To5(hay, key);
    } else if key in ["angular", "svelte", "node", "express", "mongodb", "postgres"] {
      TestRepoMisses6To11(hay, key);
    } else if key in ["mysql", "graphql", "tailwind", "bootstrap", "sass", "firebase"] {
      TestRepoMisses12To17(hay, key);
    } else if key in ["aws", "docker", "kubernetes", "jekyll", "hugo", "gatsby"] {
      TestRepoMisses18To23(hay, key);
    } else if key in ["wordpress", "php", "laravel", "python", "django", "flask"] {
      TestRepoMisses24To29(hay, key);
    } else if key in ["ruby", "rails", "go", "rust", "java", "spring"] {
      TestRepoMisses30To35(hay, key);
    } else {
      TestRepoMisses36To41(hay, key);
    }
  }

  /** No lower-cased key occurs in "test-repo". */
  lemma TestRepoMissesAll(hay: string)
    requires hay == "test-repo"
    ensures forall j :: 0 <= j < |TechKeywords| ==> !Includes(hay, LowerStr(TechKeywords[j].key))
  {
    forall j | 0 <= j < |TechKeywords|
      ensures !Includes(hay, LowerStr(TechKeywords[j].key))
    {
      TableKeys();
      assert KeysOf(TechKeywords)[j] == TechKeywords[j].key;
      TestRepoMissesKey(hay, TechKeywords[j].key);
    }
  }

  /** The topic "unknown-tech" is no key, so the topic phase yields nothing. */
  lemma UnknownTopicYieldsNothing(repo: TestRepo)
    requires repo.topics == Some(["unknown-tech"])
    ensures TopicPhase(TechKeywords, repo) == []
  {
    LowerStrOfLower(repo.topics.value[0]);
    UnknownTechIsNoKey();
    TopicLabelsNone(TechKeywords, repo.topics.value);
  }

  /** The name "test-repo" contains no key, so the name phase adds nothing. */
  lemma TestRepoNameAddsNothing(name: string)
    requires name == "test-repo"
    ensures NamePass(TechKeywords, LowerStr(name), []) == []
  {
    var hay := LowerStr(name);
    LowerStrOfLower(name);
    TestRepoMissesAll(hay);
    NamePassNone(TechKeywords, hay, []);
  }

  /** The topic "unknown-tech" on "test-repo" yields no label at all. */
  lemma UnknownTechnologiesYieldNothing(repo: TestRepo)
    requires repo == TestRepo(Some("test-repo"), Some(["unknown-tech"]))
    ensures DetectKeywords(repo) == []
  {
    UnknownTopicYieldsNothing(repo);
    TestRepoNameAddsNothing(repo.name.value);
  }
}

=== FILE: portfolio.dfy ===
/**
 The portfolio page's repository logic: which fetched repositories are listed, which
 technology tags each one gets, and which repositories a tag selection keeps.
 */
module Portfolio {
  import opened Wrappers
  import opened Ascii
  import opened Seqs

  /** A repository object from the GitHub API, reduced to the fields the page's logic reads.
      `name` is always present; the other string and list fields may be null or absent.
      An absent `fork` or `private` flag reads as false. */
  datatype Repo = Repo(
    name: string,
    description: Option<string>,
    language: Option<string>,
    topics: Option<seq<string>>,
    fork: bool,
    isPrivate: bool)

  /** The filter buttons, in display order. */
  const Technologies: seq<string> :=
    ["React", "Next.js", "Jekyll", "HTML", "Astro", "TypeScript", "TailwindCSS"]

  /** One tagging rule: `tech` is attached when the lower-cased language equals one of
      `languages`, a topic equals one of `topics` exactly, the lower-cased name contains one
      of `nameKeys`, or the lower-cased description contains one of `descriptionKeys`. */
  datatype Rule = Rule(
    tech: string,
    languages: seq<string>,
    topics: seq<string>,
    nameKeys: seq<string>,
    descriptionKeys: seq<string>)

  /** The seven rules of the page's classifier, in the order it tests them. */
  const PageRules: seq<Rule> := [
    Rule("React", ["javascript"], ["react", "reactjs"], [], ["react"]),
    Rule("Next.js", [], ["nextjs", "next"], ["next"], ["next.js", "nextjs"]),
    Rule("Jekyll", ["ruby"], ["jekyll"], ["jekyll"], ["jekyll"]),
    Rule("HTML", ["html"], ["html"], [], ["html"]),
    Rule("Astro", ["astro"], ["astro"], ["astro"], ["astro"]),
    Rule("TypeScript", ["typescript"], ["typescript"], ["typescript"], ["typescript"]),
    Rule("TailwindCSS", ["tailwindcss"], ["tailwindcss"], ["tailwindcss"], ["tailwindcss"])
  ]

  /** The labels of `rules`, in rule order. */
  function Labels(rules: seq<Rule>): (ls: seq<string>)
    ensures |ls| == |rules|
    ensures forall i :: 0 <= i < |rules| ==> ls[i] == rules[i].tech
  {
    seq(|rules|, i requires 0 <= i < |rules| => rules[i].tech)
  }

  /** The lower-cased language, or the empty string when there is none. */
  function LanguageKey(repo: Repo): string {
    LowerStr(repo.language.GetOr(""))
  }

  /** The lower-cased name. */
  function NameKey(repo: Repo): string {
    LowerStr(repo.name)
  }

  /** The lower-cased description, or the empty string when there is none. */
  function DescriptionKey(repo: Repo): string {
    LowerStr(repo.description.GetOr(""))
  }

  /** The topics as given (not lower-cased), or none. */
  function TopicList(repo: Repo): seq<string> {
    repo.topics.GetOr([])
  }

  /** Some key of `keys` is a substring of `hay` (the keys are tried in order). */
  predicate IncludesAny(hay: string, keys: seq<string>) {
    |keys| > 0 && (Includes(hay, keys[0]) || IncludesAny(hay, keys[1..]))
  }

  /** Some element of `wanted` is an element of `present` (exact comparison). */
  predicate ContainsAny(present: seq<string>, wanted: seq<string>) {
    |wanted| > 0 && (wanted[0] in present || ContainsAny(present, wanted[1..]))
  }

  /** `rule` tags `repo`: one of its four kinds of test succeeds. */
  predicate Fires(rule: Rule, repo: Repo) {
    LanguageKey(repo) in rule.languages
    || ContainsAny(TopicList(repo), rule.topics)
    || IncludesAny(NameKey(repo), rule.nameKeys)
    || IncludesAny(DescriptionKey(repo), rule.descriptionKeys)
  }

  /** Runs `rules` in order on `repo`, collecting the label of each rule that fires. */
  function DetectWith(rules: seq<Rule>, repo: Repo): seq<string>
    decreases |rules|
  {
    if |rules| == 0 then []
    else (if Fires(rules[0], repo) then [rules[0].tech] else []) + DetectWith(rules[1..], repo)
  }

  /** The labels come out in rule order, and a label is produced exactly when some rule
      carrying it fires. */
  lemma {:induction false} DetectWithSpec(rules: seq<Rule>, repo: Repo)
    ensures IsSubsequence(DetectWith(rules, repo), Labels(rules))
    ensures forall l :: l in DetectWith(rules, repo) <==>
              exists i :: 0 <= i < |rules| && rules[i].tech == l && Fires(rules[i], repo)
    decreases |rules|
  {
    if |rules| > 0 {
      DetectWithSpec(rules[1..], repo);
      var rest := DetectWith(rules[1..], repo);
      assert Labels(rules) == [rules[0].tech] + Labels(rules[1..]);
      assert forall i :: 0 < i < |rules| ==> rules[i] == rules[1..][i - 1];
      assert forall i :: 0 <= i < |rules| - 1 ==> rules[1..][i] == rules[i + 1];
      if !Fires(rules[0], repo) {
        assert DetectWith(rules, repo) == rest;
      }
    }
  }

  /** `detectTechnology(repo)`: the page's classifier. */
  function Detect(repo: Repo): seq<string> {
    DetectWith(PageRules, repo)
  }

  /** The repository shows at least one of the selected labels. */
  predicate MatchesSelection(repo: Repo, selected: seq<string>) {
    exists t :: t in selected && t in Detect(repo)
  }

  /** `filterRepos`: an empty selection shows every repository unchanged; otherwise the
      repositories tagged with at least one selected label are shown, in their order,
      each occurrence kept. */
  function FilterRepos(repos: seq<Repo>, selected: seq<string>): (shown: seq<Repo>)
    ensures |selected| == 0 ==> shown == repos
    ensures IsSubsequence(shown, repos)
    ensures |selected| > 0 ==>
              forall r :: r in shown <==> r in repos && MatchesSelection(r, selected)
    ensures |selected| > 0 ==>
              forall r :: multiset(shown)[r] ==
                            if MatchesSelection(r, selected) then multiset(repos)[r] else 0
  {
    if |selected| == 0 then
      SubsequenceReflexive(repos);
      repos
    else
      FilterCount(repos, (r: Repo) => MatchesSelection(r, selected));
      Filter(repos, (r: Repo) => MatchesSelection(r, selected))
  }

  /** `toggleTechnology`: a selected label is deselected (every occurrence removed, the
      other labels kept in order); an unselected label is appended at the end. */
  function Toggle(selected: seq<string>, tech: string): (next: seq<string>)
    ensures tech in selected ==> tech !in next
    ensures tech in selected ==> IsSubsequence(next, selected)
    ensures tech in selected ==>
              forall t :: t != tech ==> multiset(next)[t] == multiset(selected)[t]
    ensures tech !in selected ==> next == selected + [tech]
  {
    if tech in selected then
      FilterCount(selected, t => t != tech);
      Filter(selected, t => t != tech)
    else
      selected + [tech]
  }

  /** The "Clear All" button: the selection becomes empty. */
  function ClearAll(selected: seq<string>): (next: seq<string>)
    ensures |next| == 0
  {
    []
  }

  /** The filter applied to the fetched list: forks and private repositories are dropped,
      the rest keep their order and multiplicity. */
  function PublicRepos(data: seq<Repo>): (repos: seq<Repo>)
    ensures IsSubsequence(repos, data)
    ensures forall r :: r in repos <==> r in data && !r.fork && !r.isPrivate
    ensures forall r :: multiset(repos)[r] ==
                          if !r.fork && !r.isPrivate then multiset(data)[r] else 0
  {
    FilterCount(data, (r: Repo) => !r.fork && !r.isPrivate);
    Filter(data, (r: Repo) => !r.fork && !r.isPrivate)
  }
}

=== FILE: portfolio_facts.dfy ===
/**
 Properties of the portfolio page's classifier, repository filter and tag selection.

 Lemmas about a particular literal (a string, a table index or a record) take it as a
 parameter constrained by `requires x == ...` rather than naming it in their `ensures`.
 Callers then see only the stated fact and never unfold the literal, or the 42-entry
 keyword table, in their own proof obligations.
 */
module PortfolioFacts {
  import opened Wrappers
  import opened Ascii
  import opened Seqs
  import opened Portfolio

  /** The rules carry the filter buttons' labels, in the buttons' order. */
  lemma RuleLabelsAreTechnologies()
    ensures Labels(PageRules) == Technologies
    ensures NoDups(Technologies)
  {
  }

  /** The tags of any repository are a subsequence of the filter buttons: they come in
      button order, never repeat (so the tag elements' keys are unique), and every tag has
      a button that selects it. */
  lemma DetectIsSubsequenceOfTechnologies(repo: Repo)
    ensures IsSubsequence(Detect(repo), Technologies)
    ensures NoDups(Detect(repo))
    ensures forall t :: t in Detect(repo) ==> t in Technologies
  {
    RuleLabelsAreTechnologies();
    DetectWithSpec(PageRules, repo);
    SubsequenceNoDups(Detect(repo), Technologies);
    SubsequenceMembers(Detect(repo), Technologies);
  }

  /** Each button's label is attached exactly when that button's rule fires. */
  lemma DetectExactlyFiringRules(repo: Repo, i: int)
    requires 0 <= i < |PageRules|
    ensures PageRules[i].tech in Detect(repo) <==> Fires(PageRules[i], repo)
  {
    RuleLabelsAreTechnologies();
    DetectWithSpec(PageRules, repo);
    forall j | 0 <= j < |PageRules| && PageRules[j].tech == PageRules[i].tech
      ensures j == i
    {
      assert Labels(PageRules)[i] == PageRules[i].tech;
      assert Labels(PageRules)[j] == PageRules[j].tech;
    }
  }

  /** Two repositories with the same lower-cased language, name and description and the
      same topics fire the same rules. */
  lemma {:induction false} DetectWithSameKeys(rules: seq<Rule>, a: Repo, b: Repo)
    requires LanguageKey(a) == LanguageKey(b) && NameKey(a) == NameKey(b)
    requires DescriptionKey(a) == DescriptionKey(b) && TopicList(a) == TopicList(b)
    ensures DetectWith(rules, a) == DetectWith(rules, b)
    decreases |rules|
  {
    if |rules| > 0 {
      DetectWithSameKeys(rules[1..], a, b);
    }
  }

  /** A missing description, language or topic list behaves exactly like an empty one. */
  lemma MissingFieldsActAsEmpty(repo: Repo)
    ensures Detect(repo.(description := None)) == Detect(repo.(description := Some("")))
    ensures Detect(repo.(language := None)) == Detect(repo.(language := Some("")))
    ensures Detect(repo.(topics := None)) == Detect(repo.(topics := Some([])))
  {
    DetectWithSameKeys(PageRules, repo.(description := None), repo.(description := Some("")));
    DetectWithSameKeys(PageRules, repo.(language := None), repo.(language := Some("")));
    DetectWithSameKeys(PageRules, repo.(topics := None), repo.(topics := Some([])));
  }

  /** Some key is found exactly when one of them is a substring. */
  lemma {:induction false} IncludesAnyExists(hay: string, keys: seq<string>)
    ensures IncludesAny(hay, keys) <==> exists k :: k in keys && Includes(hay, k)
    decreases |keys|
  {
    if |keys| > 0 {
      IncludesAnyExists(hay, keys[1..]);
      assert forall k :: k in keys <==> k == keys[0] || k in keys[1..];
      if Includes(hay, keys[0]) {
        assert keys[0] in keys;
      }
    }
  }

  /** Some wanted element is present exactly when one of them is a member. */
  lemma {:induction false} ContainsAnyExists(present: seq<string>, wanted: seq<string>)
    ensures ContainsAny(present, wanted) <==> exists t :: t in wanted && t in present
    decreases |wanted|
  {
    if |wanted| > 0 {
      ContainsAnyExists(present, wanted[1..]);
      assert forall t :: t in wanted <==> t == wanted[0] || t in wanted[1..];
    }
  }

  /** A rule fires when its language test, one of its topics, one of its name keys or one
      of its description keys matches. */
  lemma FiresExists(rule: Rule, repo: Repo)
    ensures Fires(rule, repo) <==>
              LanguageKey(repo) in rule.languages
              || (exists t :: t in rule.topics && t in TopicList(repo))
              || (exists k :: k in rule.nameKeys && Includes(NameKey(repo), k))
              || (exists k :: k in rule.descriptionKeys && Includes(DescriptionKey(repo), k))
  {
    ContainsAnyExists(TopicList(repo), rule.topics);
    IncludesAnyExists(NameKey(repo), rule.nameKeys);
    IncludesAnyExists(DescriptionKey(repo), rule.descriptionKeys);
  }

  /** Rule 0 of the page's classifier, spelled out. */
  lemma ReactFires(repo: Repo)
    ensures Fires(PageRules[0], repo) <==>
              LanguageKey(repo) == "javascript"
              || "react" in TopicList(repo) || "reactjs" in TopicList(repo)
              || Includes(DescriptionKey(repo), "react")
  {
    FiresExists(PageRules[0], repo);
  }

  /** "React": the language is JavaScript, a topic is "react" or "reactjs", or the
      description mentions "react"; the name is not consulted. */
  lemma ReactRule(repo: Repo)
    ensures "React" in Detect(repo) <==>
              LanguageKey(repo) == "javascript"
              || "react" in TopicList(repo) || "reactjs" in TopicList(repo)
              || Includes(DescriptionKey(repo), "react")
  {
    DetectExactlyFiringRules(repo, 0);
    ReactFires(repo);
  }

  /** Rule 1 of the page's classifier, spelled out. */
  lemma NextJsFires(repo: Repo)
    ensures Fires(PageRules[1], repo) <==>
              "nextjs" in TopicList(repo) || "next" in TopicList(repo)
              || Includes(NameKey(repo), "next")
              || Includes(DescriptionKey(repo), "next.js") || Includes(DescriptionKey(repo), "nextjs")
  {
    FiresExists(PageRules[1], repo);
  }

  /** "Next.js": a topic is "nextjs" or "next", the name mentions "next", or the
      description mentions "next.js" or "nextjs"; the language is not consulted. */
  lemma NextJsRule(repo: Repo)
    ensures "Next.js" in Detect(repo) <==>
              "nextjs" in TopicList(repo) || "next" in TopicList(repo)
              || Includes(NameKey(repo), "next")
              || Includes(DescriptionKey(repo), "next.js") || Includes(DescriptionKey(repo), "nextjs")
  {
    DetectExactlyFiringRules(repo, 1);
    NextJsFires(repo);
  }

  /** Rule 2 of the page's classifier, spelled out. */
  lemma JekyllFires(repo: Repo)
    ensures Fires(PageRules[2], repo) <==>
              LanguageKey(repo) == "ruby" || "jekyll" in TopicList(repo)
              || Includes(NameKey(repo), "jekyll") || Includes(DescriptionKey(repo), "jekyll")
  {
    FiresExists(PageRules[2], repo);
  }

  /** "Jekyll": the language is Ruby, or "jekyll" is a topic or occurs in the name or the
      description. */
  lemma JekyllRule(repo: Repo)
    ensures "Jekyll" in Detect(repo) <==>
              LanguageKey(repo) == "ruby" || "jekyll" in TopicList(repo)
              || Includes(NameKey(repo), "jekyll") || Includes(DescriptionKey(repo), "jekyll")
  {
    DetectExactlyFiringRules(repo, 2);
    JekyllFires(repo);
  }

  /** Rule 3 of the page's classifier, spelled out. */
  lemma HtmlFires(repo: Repo)
    ensures Fires(PageRules[3], repo) <==>
              LanguageKey(repo) == "html" || "html" in TopicList(repo)
              || Includes(DescriptionKey(repo), "html")
  {
    FiresExists(PageRules[3], repo);
  }

  /** "HTML": the language is HTML, "html" is a topic, or the description mentions it;
      the name is not consulted. */
  lemma HtmlRule(repo: Repo)
    ensures "HTML" in Detect(repo) <==>
              LanguageKey(repo) == "html" || "html" in TopicList(repo)
              || Includes(DescriptionKey(repo), "html")
  {
    DetectExactlyFiringRules(repo, 3);
    HtmlFires(repo);
  }

  /** Rule 4 of the page's classifier, spelled out. */
  lemma AstroFires(repo: Repo)
    ensures Fires(PageRules[4], repo) <==>
              LanguageKey(repo) == "astro" || "astro" in TopicList(repo)
              || Includes(NameKey(repo), "astro") || Includes(DescriptionKey(repo), "astro")
  {
    FiresExists(PageRules[4], repo);
  }

  /** "Astro": the language is Astro, or "astro" is a topic or occurs in the name or the
      description. */
  lemma AstroRule(repo: Repo)
    ensures "Astro" in Detect(repo) <==>
              LanguageKey(repo) == "astro" || "astro" in TopicList(repo)
              || Includes(NameKey(repo), "astro") || Includes(DescriptionKey(repo), "astro")
  {
    DetectExactlyFiringRules(repo, 4);
    AstroFires(repo);
  }

  /** Rule 5 of the page's classifier, spelled out. */
  lemma TypeScriptFires(repo: Repo)
    ensures Fires(PageRules[5], repo) <==>
              LanguageKey(repo) == "typescript" || "typescript" in TopicList(repo)
              || Includes(NameKey(repo), "typescript") || Includes(DescriptionKey(repo), "typescript")
  {
    FiresExists(PageRules[5], repo);
  }

  /** "TypeScript": the language is TypeScript, or "typescript" is a topic or occurs in the
      name or the description. */
  lemma TypeScriptRule(repo: Repo)
    ensures "TypeScript" in Detect(repo) <==>
              LanguageKey(repo) == "typescript" || "typescript" in TopicList(repo)
              || Includes(NameKey(repo), "typescript") || Includes(DescriptionKey(repo), "typescript")
  {
    DetectExactlyFiringRules(repo, 5);
    TypeScriptFires(repo);
  }

  /** Rule 6 of the page's classifier, spelled out. */
  lemma TailwindFires(repo: Repo)
    ensures Fires(PageRules[6], repo) <==>
              LanguageKey(repo) == "tailwindcss" || "tailwindcss" in TopicList(repo)
              || Includes(NameKey(repo), "tailwindcss") || Includes(DescriptionKey(repo), "tailwindcss")
  {
    FiresExists(PageRules[6], repo);
  }

  /** "TailwindCSS": the language is "tailwindcss", or "tailwindcss" is a topic or occurs in
      the name or the description. */
  lemma TailwindRule(repo: Repo)
    ensures "TailwindCSS" in Detect(repo) <==>
              LanguageKey(repo) == "tailwindcss" || "tailwindcss" in TopicList(repo)
              || Includes(NameKey(repo), "tailwindcss") || Includes(DescriptionKey(repo), "tailwindcss")
  {
    DetectExactlyFiringRules(repo, 6);
    TailwindFires(repo);
  }

  /** Any casing of the language "JavaScript" tags the repository "React". */
  lemma JavaScriptImpliesReact(repo: Repo)
    requires repo.language.Some? && LowerStr(repo.language.value) == "javascript"
    ensures "React" in Detect(repo)
  {
    ReactRule(repo);
  }

  /** A name containing "next" in any casing tags the repository "Next.js". */
  lemma NameNextImpliesNextJs(repo: Repo)
    requires Includes(LowerStr(repo.name), "next")
    ensures "Next.js" in Detect(repo)
  {
    NextJsRule(repo);
  }

  /** Topics are compared exactly: a repository whose only topic is "React" gets the tag
      only through its language or its description. */
  lemma CapitalisedTopicIgnored(repo: Repo)
    requires TopicList(repo) == ["React"]
    ensures "React" in Detect(repo) <==>
              LanguageKey(repo) == "javascript" || Includes(DescriptionKey(repo), "react")
  {
    assert "React"[0] != "react"[0];
    assert "react" !in TopicList(repo) && "reactjs" !in TopicList(repo);
    ReactRule(repo);
  }

  /** The lower-case topic "react" tags a repository "React" whatever else it holds. */
  lemma LowerCaseTopicMatched(repo: Repo)
    requires "react" in TopicList(repo)
    ensures "React" in Detect(repo)
  {
    ReactRule(repo);
  }

  /** "JavaScript" folds to "javascript". */
  lemma JavaScriptLowers(language: string)
    requires language == "JavaScript"
    ensures LowerStr(language) == "javascript"
  {
    LowerStrSpec(language);
  }

  /** "my-next-app" is already lower case. */
  lemma MyNextAppNameLowers(name: string)
    requires name == "my-next-app"
    ensures LowerStr(name) == name
  {
    LowerStrOfLower(name);
  }

  /** The empty string contains no non-empty keyword. */
  lemma EmptyHasNoKeyword(hay: string, key: string)
    requires hay == "" && |key| > 0
    ensures !Includes(hay, key)
  {
    AbsentChar(hay, key, 0);
  }

  /** Of the rules' name keywords, "my-next-app" contains "next" and none of the others. */
  lemma MyNextAppNameKeywords(name: string)
    requires name == "my-next-app"
    ensures Includes(name, "next")
    ensures !Includes(name, "jekyll") && !Includes(name, "astro")
    ensures !Includes(name, "typescript") && !Includes(name, "tailwindcss")
  {
    assert name[3..7] == "next";
    assert OccursAt(name, "next", 3);
    IncludesOccurs(name, "next");
    AbsentChar(name, "jekyll", 0);
    AbsentChar(name, "astro", 1);
    AbsentChar(name, "typescript", 4);
    AbsentChar(name, "tailwindcss", 2);
  }

  /** The keyword facts the "my-next-app" example relies on. */
  predicate MyNextAppShape(repo: Repo) {
    LanguageKey(repo) == "javascript" && TopicList(repo) == ["react"]
    && Includes(NameKey(repo), "next")
    && !Includes(NameKey(repo), "jekyll") && !Includes(NameKey(repo), "astro")
    && !Includes(NameKey(repo), "typescript") && !Includes(NameKey(repo), "tailwindcss")
    && DescriptionKey(repo) == ""
  }

  /** The first three rules on a repository shaped like the "my-next-app" example. */
  lemma MyNextAppFirstRules(repo: Repo)
    requires MyNextAppShape(repo)
    ensures "React" in Detect(repo) && "Next.js" in Detect(repo) && "Jekyll" !in Detect(repo)
  {
    EmptyHasNoKeyword(DescriptionKey(repo), "jekyll");
    ReactRule(repo);
    NextJsRule(repo);
    JekyllRule(repo);
  }

  /** Rule four on a repository shaped like the "my-next-app" example. */
  lemma MyNextAppNoHtml(repo: Repo)
    requires MyNextAppShape(repo)
    ensures "HTML" !in Detect(repo)
  {
    EmptyHasNoKeyword(DescriptionKey(repo), "html");
    HtmlRule(repo);
  }

  /** Rule five on a repository shaped like the "my-next-app" example. */
  lemma MyNextAppNoAstro(repo: Repo)
    requires MyNextAppShape(repo)
    ensures "Astro" !in Detect(repo)
  {
    EmptyHasNoKeyword(DescriptionKey(repo), "astro");
    AstroRule(repo);
  }

  /** Rule six on a repository shaped like the "my-next-app" example. */
  lemma MyNextAppNoTypeScript(repo: Repo)
    requires MyNextAppShape(repo)
    ensures "TypeScript" !in Detect(repo)
  {
    EmptyHasNoKeyword(DescriptionKey(repo), "typescript");
    TypeScriptRule(repo);
  }

  /** Rule seven on a repository shaped like the "my-next-app" example. */
  lemma MyNextAppNoTailwind(repo: Repo)
    requires MyNextAppShape(repo)
    ensures "TailwindCSS" !in Detect(repo)
  {
    EmptyHasNoKeyword(DescriptionKey(repo), "tailwindcss");
    TailwindRule(repo);
  }

  /** Button labels that are none of the last five buttons are React or Next.js. */
  lemma OnlyReactAndNextJs(tags: seq<string>)
    requires forall t :: t in tags ==> t in Technologies
    requires "Jekyll" !in tags && "HTML" !in tags && "Astro" !in tags
    requires "TypeScript" !in tags && "TailwindCSS" !in tags
    ensures forall t :: t in tags ==> t == "React" || t == "Next.js"
  {
  }

  /** A repository with the keyword facts of the "my-next-app" example is tagged exactly
      React and Next.js, React once although two of its tests match. */
  lemma MyNextAppShapeTags(repo: Repo)
    requires MyNextAppShape(repo)
    ensures (forall t :: t in Detect(repo) <==> t == "React" || t == "Next.js") && NoDups(Detect(repo))
  {
    MyNextAppFirstRules(repo);
    MyNextAppNoHtml(repo);
    MyNextAppNoAstro(repo);
    MyNextAppNoTypeScript(repo);
    MyNextAppNoTailwind(repo);
    DetectIsSubsequenceOfTechnologies(repo);
    OnlyReactAndNextJs(Detect(repo));
  }

  /** For a repository shaped like the "my-next-app" example the tags are exactly the list
      React, Next.js, in button order. */
  lemma MyNextAppShapeList(repo: Repo)
    requires MyNextAppShape(repo)
    ensures Detect(repo) == ["React", "Next.js"]
  {
    MyNextAppFirstRules(repo);
    MyNextAppNoHtml(repo);
    MyNextAppNoAstro(repo);
    MyNextAppNoTypeScript(repo);
    MyNextAppNoTailwind(repo);
    DetectExactlyFiringRules(repo, 0);
    DetectExactlyFiringRules(repo, 1);
    DetectExactlyFiringRules(repo, 2);
    DetectExactlyFiringRules(repo, 3);
    DetectExactlyFiringRules(repo, 4);
    DetectExactlyFiringRules(repo, 5);
    DetectExactlyFiringRules(repo, 6);
  }

  /** The "my-next-app" example has the keyword facts above. */
  lemma MyNextAppIsShaped(repo: Repo)
    requires repo == Repo("my-next-app", None, Some("JavaScript"), Some(["react"]), false, false)
    ensures MyNextAppShape(repo)
  {
    JavaScriptLowers(repo.language.value);
    MyNextAppNameLowers(repo.name);
    assert LowerStr("") == "";
    MyNextAppNameKeywords(NameKey(repo));
  }

  /** A repository named "my-next-app" in JavaScript with topic "react" is tagged
      exactly React and Next.js, in that order and each once. */
  lemma MyNextAppScenario(repo: Repo)
    requires repo == Repo("my-next-app", None, Some("JavaScript"), Some(["react"]), false, false)
    ensures forall t :: t in Detect(repo) <==> t == "React" || t == "Next.js"
    ensures NoDups(Detect(repo))
    ensures Detect(repo) == ["React", "Next.js"]
  {
    MyNextAppIsShaped(repo);
    MyNextAppShapeTags(repo);
    MyNextAppShapeList(repo);
  }

  /** Selecting more labels never hides a repository: with OR semantics, the repositories
      shown for a selection are a subsequence of those shown for any larger selection. */
  lemma FilterWidening(repos: seq<Repo>, selected: seq<string>, wider: seq<string>)
    requires |selected| > 0
    requires forall t :: t in selected ==> t in wider
    ensures IsSubsequence(FilterRepos(repos, selected), FilterRepos(repos, wider))
  {
    assert selected[0] in wider;
    FilterWeaker(repos, (r: Repo) => MatchesSelection(r, selected),
                        (r: Repo) => MatchesSelection(r, wider));
  }

  /** Selecting a label that no repository carries shows nothing (the page then shows
      its "no repositories found" message). */
  lemma UnusedLabelShowsNothing(repos: seq<Repo>, tech: string)
    requires forall r :: r in repos ==> tech !in Detect(r)
    ensures FilterRepos(repos, [tech]) == []
  {
  }

  /** After "Clear All" the page shows the fetched list unchanged. */
  lemma ClearAllShowsEverything(repos: seq<Repo>, selected: seq<string>)
    ensures FilterRepos(repos, ClearAll(selected)) == repos
  {
  }

  /** Toggling a label that is not selected, twice, restores the selection. */
  lemma ToggleTwiceRestores(selected: seq<string>, tech: string)
    requires tech !in selected
    ensures Toggle(Toggle(selected, tech), tech) == selected
  {
    var keep := (t: string) => t != tech;
    FilterConcat(selected, [tech], keep);
    FilterAll(selected, keep);
  }

  /** Toggling a selected label twice does not restore the selection: the label moves to
      the end. */
  lemma ToggleTwiceMovesToEnd(selected: seq<string>, tech: string)
    requires tech in selected
    ensures Toggle(Toggle(selected, tech), tech) == Toggle(selected, tech) + [tech]
  {
  }

  /** A selection without duplicates stays without duplicates after a toggle, and the
      toggled label is selected afterwards exactly when it was not before. */
  lemma ToggleKeepsNoDups(selected: seq<string>, tech: string)
    requires NoDups(selected)
    ensures NoDups(Toggle(selected, tech))
    ensures tech in Toggle(selected, tech) <==> tech !in selected
  {
    if tech in selected {
      SubsequenceNoDups(Toggle(selected, tech), selected);
    } else {
      var next := selected + [tech];
      forall i, j | 0 <= i < j < |next| ensures next[i] != next[j] {
        if j == |selected| {
          assert next[i] == selected[i];
        }
      }
    }
  }

  /** Every label the buttons produce comes from `Technologies`, so a selection built by
      toggles and clears from the empty one holds only button labels, each at most once. */
  lemma ButtonSelectionsStayWellFormed(selected: seq<string>, tech: string)
    requires NoDups(selected)
    requires forall t :: t in selected ==> t in Technologies
    requires tech in Technologies
    ensures NoDups(Toggle(selected, tech))
    ensures forall t :: t in Toggle(selected, tech) ==> t in Technologies
  {
    ToggleKeepsNoDups(selected, tech);
    if tech in selected {
      SubsequenceMembers(Toggle(selected, tech), selected);
    }
  }

  /** Dropping forks and private repositories twice is the same as once. */
  lemma PublicReposIdempotent(data: seq<Repo>)
    ensures PublicRepos(PublicRepos(data)) == PublicRepos(data)
  {
    FilterAll(PublicRepos(data), (r: Repo) => !r.fork && !r.isPrivate);
  }
}

=== FILE: prototype.dfy ===
/**
 Bracket access on a plain JavaScript object also finds the members it inherits from
 `Object.prototype`. The test classifier reads `techKeywords[normalizedTopic]` that way, so a
 topic that lower-cases to an inherited member name is "recognised" and the member itself
 (a function or an object, never a label) is pushed. This module models that reading as
 written and relates it to the own-property reading the rest of the model uses.

 Lemmas about a particular literal (a string, a table index or a record) take it as a
 parameter constrained by `requires x == ...` rather than naming it in their `ensures`.
 Callers then see only the stated fact and never unfold the literal, or the 42-entry
 keyword table, in their own proof obligations.
 */
module PrototypeLookup {
  import opened Wrappers
  import opened Ascii
  import opened Seqs
  import opened KeywordClassifier
  import opened KeywordFacts

  /** The members every plain object inherits from `Object.prototype`. The classifier looks
      up lower-cased topics only, so of these just "constructor" and "__proto__" can be
      reached; the camel-case names cannot (see `OnlyLowerCaseMembersReachable`). */
  const ObjectPrototypeMembers: seq<string> := [
    "constructor", "__proto__", "hasOwnProperty", "isPrototypeOf", "propertyIsEnumerable",
    "toLocaleString", "toString", "valueOf", "__defineGetter__", "__defineSetter__",
    "__lookupGetter__", "__lookupSetter__"
  ]

  /** A value read from the keyword object: one of its own labels, or an inherited member
      (a function, or the prototype object for `__proto__`). */
  datatype Value = Label(text: string) | Inherited(member: string)

  /** JavaScript truthiness of a value read from the object: a label is truthy when it is
      not empty; functions and objects are always truthy. */
  predicate Truthy(v: Value) {
    match v
    case Label(text) => |text| > 0
    case Inherited(_) => true
  }

  /** `table[k]` with ordinary property access: an own property first, then the prototype
      chain, else `undefined`. */
  function PropertyGet(table: seq<Entry>, k: string): Option<Value> {
    match Lookup(table, k)
    case Some(t) => Some(Label(t))
    case None => if k in ObjectPrototypeMembers then Some(Inherited(k)) else None
  }

  /** The topic phase as the test file writes it: every topic whose lower-cased form reads a
      truthy value from the object pushes that value. */
  function TopicValuesAsWritten(table: seq<Entry>, topics: seq<string>): seq<Value>
    decreases |topics|
  {
    if |topics| == 0 then []
    else
      var head := match PropertyGet(table, LowerStr(topics[0]))
                  case Some(v) => if Truthy(v) then [v] else []
                  case None => [];
      head + TopicValuesAsWritten(table, topics[1..])
  }

  /** The labels of a sequence, as values. */
  function AsValues(labels: seq<string>): (vs: seq<Value>)
    ensures |vs| == |labels|
    ensures forall i :: 0 <= i < |labels| ==> vs[i] == Label(labels[i])
  {
    seq(|labels|, i requires 0 <= i < |labels| => Label(labels[i]))
  }

  /** Wrapping labels as values distributes over concatenation. */
  lemma AsValuesConcat(a: seq<string>, b: seq<string>)
    ensures AsValues(a + b) == AsValues(a) + AsValues(b)
  {
  }

  /** As long as no topic lower-cases to an inherited member name, the topic phase as
      written pushes exactly the labels of the own-property topic phase. */
  lemma {:induction false} AsWrittenAgreesOffPrototype(table: seq<Entry>, topics: seq<string>)
    requires forall i :: 0 <= i < |topics| ==> LowerStr(topics[i]) !in ObjectPrototypeMembers
    ensures TopicValuesAsWritten(table, topics) == AsValues(TopicLabels(table, topics))
    decreases |topics|
  {
    if |topics| > 0 {
      assert forall i :: 0 <= i < |topics| - 1 ==> topics[1..][i] == topics[i + 1];
      AsWrittenAgreesOffPrototype(table, topics[1..]);
      AsValuesConcat(TopicLabel(table, topics[0]), TopicLabels(table, topics[1..]));
    }
  }

  /** A string holding an upper-case letter is not its own lower-case form. */
  lemma HasUpperIsNotLower(m: string, j: nat)
    requires j < |m| && IsUpper(m[j])
    ensures !IsLowerStr(m)
  {
  }

  /** A lower-cased topic names an inherited member only when it is "constructor" or
      "__proto__": every other member name contains an upper-case letter. */
  lemma OnlyLowerCaseMembersReachable(topic: string)
    ensures LowerStr(topic) in ObjectPrototypeMembers ==>
              LowerStr(topic) == "constructor" || LowerStr(topic) == "__proto__"
  {
    LowerStrSpec(topic);
    HasUpperIsNotLower("hasOwnProperty", 3);
    HasUpperIsNotLower("isPrototypeOf", 2);
    HasUpperIsNotLower("propertyIsEnumerable", 8);
    HasUpperIsNotLower("toLocaleString", 2);
    HasUpperIsNotLower("toString", 2);
    HasUpperIsNotLower("valueOf", 5);
    HasUpperIsNotLower("__defineGetter__", 8);
    HasUpperIsNotLower("__defineSetter__", 8);
    HasUpperIsNotLower("__lookupGetter__", 8);
    HasUpperIsNotLower("__lookupSetter__", 8);
  }

  /** "constructor" is not a key of the table. */
  lemma ConstructorIsNoKey(k: string)
    requires k == "constructor"
    ensures k !in KeysOf(TechKeywords)
  {
    TableKeys();
  }

  /** "__proto__" is not a key of the table. */
  lemma ProtoIsNoKey(k: string)
    requires k == "__proto__"
    ensures k !in KeysOf(TechKeywords)
  {
    TableKeys();
  }

  /** "Constructor" lower-cases to "constructor". */
  lemma ConstructorLowers(topic: string)
    requires topic == "Constructor"
    ensures LowerStr(topic) == "constructor"
  {
    LowerStrSpec(topic);
  }

  /** A single topic that is no key of the table but lower-cases to an inherited member
      name: the classifier as written pushes that member, the own-property reading pushes
      nothing. */
  lemma InheritedTopicLeaks(table: seq<Entry>, topics: seq<string>)
    requires |topics| == 1
    requires Lookup(table, LowerStr(topics[0])) == None
    requires LowerStr(topics[0]) in ObjectPrototypeMembers
    ensures TopicValuesAsWritten(table, topics) == [Inherited(LowerStr(topics[0]))]
    ensures TopicLabels(table, topics) == []
  {
    assert topics[1..] == [];
  }

  /** The topic phase as written distributes over concatenation of topic lists, as the
      `forEach` over the topics does. */
  lemma {:induction false} TopicValuesAsWrittenConcat(table: seq<Entry>, a: seq<string>, b: seq<string>)
    ensures TopicValuesAsWritten(table, a + b)
            == TopicValuesAsWritten(table, a) + TopicValuesAsWritten(table, b)
    decreases |a|
  {
    if |a| == 0 {
      assert a + b == b;
    } else {
      TopicValuesAsWrittenConcat(table, a[1..], b);
      assert (a + b)[1..] == a[1..] + b;
      assert (a + b)[0] == a[0];
    }
  }

  /** A topic at any position that is no key but names an inherited member makes the code
      as written push that member, whatever the other topics are. */
  lemma InheritedTopicAnywhere(table: seq<Entry>, topics: seq<string>, i: int)
    requires 0 <= i < |topics|
    requires Lookup(table, LowerStr(topics[i])) == None
    requires LowerStr(topics[i]) in ObjectPrototypeMembers
    ensures Inherited(LowerStr(topics[i])) in TopicValuesAsWritten(table, topics)
  {
    assert topics == topics[..i] + topics[i..];
    TopicValuesAsWrittenConcat(table, topics[..i], topics[i..]);
    assert topics[i..][0] == topics[i];
  }

  /** The table has no entry for "constructor". */
  lemma ConstructorNotFound(k: string)
    requires k == "constructor"
    ensures Lookup(TechKeywords, k) == None
    ensures k in ObjectPrototypeMembers
  {
    ConstructorIsNoKey(k);
    LookupSpec(TechKeywords, k);
  }

  /** The concrete counterexample: for the topic list ["Constructor"] the classifier as
      written pushes the inherited `constructor` function, which no table entry carries;
      the own-property reading pushes nothing. */
  lemma ConstructorTopicLeaks(topics: seq<string>)
    requires topics == ["Constructor"]
    ensures TopicValuesAsWritten(TechKeywords, topics) == [Inherited("constructor")]
    ensures TopicLabels(TechKeywords, topics) == []
  {
    ConstructorLowers(topics[0]);
    ConstructorNotFound(LowerStr(topics[0]));
    InheritedTopicLeaks(TechKeywords, topics);
  }

  /** The table has no entry for "__proto__". */
  lemma ProtoNotFound(k: string)
    requires k == "__proto__"
    ensures Lookup(TechKeywords, k) == None
    ensures k in ObjectPrototypeMembers
  {
    ProtoIsNoKey(k);
    LookupSpec(TechKeywords, k);
  }

  /** For the topic list ["__proto__"] the classifier as written pushes `Object.prototype`
      itself; the own-property reading pushes nothing. */
  lemma ProtoTopicLeaks(topics: seq<string>)
    requires topics == ["__proto__"]
    ensures TopicValuesAsWritten(TechKeywords, topics) == [Inherited("__proto__")]
    ensures TopicLabels(TechKeywords, topics) == []
  {
    LowerStrOfLower(topics[0]);
    ProtoNotFound(LowerStr(topics[0]));
    InheritedTopicLeaks(TechKeywords, topics);
  }

  /** The own-property reading, which the rest of the model uses, pushes only labels the
      table carries: nothing inherited ever reaches the result. */
  lemma CorrectedPushesOnlyLabels(table: seq<Entry>, topics: seq<string>)
    ensures forall v :: v in AsValues(TopicLabels(table, topics)) ==>
              v.Label? && v.text in TechsOf(table)
  {
    TopicLabelsSpec(table, topics);
    var vs := AsValues(TopicLabels(table, topics));
    forall v | v in vs ensures v.Label? && v.text in TechsOf(table) {
      var i :| 0 <= i < |vs| && vs[i] == v;
      assert TopicLabels(table, topics)[i] in TopicLabels(table, topics);
    }
  }
}

=== FILE: seqs.dfy ===
/**
 Sequence vocabulary shared by the classifiers and the filters: order-preserving
 subsequences, duplicate-freedom, and `Array.prototype.filter`.
 */
module Seqs {

  /** `a` can be obtained from `b` by deleting elements, keeping the order of the rest. */
  predicate IsSubsequence<T(==)>(a: seq<T>, b: seq<T>)
    decreases |b|
  {
    if |a| == 0 then true
    else if |b| == 0 then false
    else (a[0] == b[0] && IsSubsequence(a[1..], b[1..])) || IsSubsequence(a, b[1..])
  }

  /** No element occurs twice. */
  predicate NoDups<T(==)>(s: seq<T>) {
    forall i, j :: 0 <= i < j < |s| ==> s[i] != s[j]
  }

  /** Every element of a subsequence is an element of the whole. */
  lemma {:induction false} SubsequenceMembers<T>(a: seq<T>, b: seq<T>)
    requires IsSubsequence(a, b)
    ensures forall x :: x in a ==> x in b
    decreases |b|
  {
    if |a| > 0 {
      if a[0] == b[0] && IsSubsequence(a[1..], b[1..]) {
        SubsequenceMembers(a[1..], b[1..]);
        assert a == [a[0]] + a[1..];
      } else {
        SubsequenceMembers(a, b[1..]);
      }
    }
  }

  /** A subsequence of a duplicate-free sequence is duplicate-free. */
  lemma {:induction false} SubsequenceNoDups<T>(a: seq<T>, b: seq<T>)
    requires IsSubsequence(a, b)
    requires NoDups(b)
    ensures NoDups(a)
    decreases |b|
  {
    if |a| > 0 {
      assert NoDups(b[1..]) by {
        forall i, j | 0 <= i < j < |b[1..]| ensures b[1..][i] != b[1..][j] {
          assert b[1..][i] == b[i + 1] && b[1..][j] == b[j + 1];
        }
      }
      if a[0] == b[0] && IsSubsequence(a[1..], b[1..]) {
        SubsequenceNoDups(a[1..], b[1..]);
        SubsequenceMembers(a[1..], b[1..]);
        forall j | 0 < j < |a| ensures a[0] != a[j] {
          assert a[j] == a[1..][j - 1];
          assert a[j] in b[1..];
        }
      } else {
        SubsequenceNoDups(a, b[1..]);
      }
    }
  }

  /** Every sequence is a subsequence of itself. */
  lemma {:induction false} SubsequenceReflexive<T>(s: seq<T>)
    ensures IsSubsequence(s, s)
    decreases |s|
  {
    if |s| > 0 {
      SubsequenceReflexive(s[1..]);
    }
  }

  /** A subsequence of the tail is a subsequence of the whole, also with the head in front. */
  lemma SubsequenceOfTail<T>(a: seq<T>, b: seq<T>)
    requires |b| > 0 && IsSubsequence(a, b[1..])
    ensures IsSubsequence(a, b)
    ensures IsSubsequence([b[0]] + a, b)
  {
    assert ([b[0]] + a)[1..] == a;
  }

  /** `s.filter(keep)`: the elements of `s` that satisfy `keep`, in their original order.
      The result is a subsequence of `s` and holds exactly the members of `s` that
      satisfy `keep`. */
  function Filter<T(==,!new)>(s: seq<T>, keep: T -> bool): (r: seq<T>)
    ensures IsSubsequence(r, s)
    ensures forall x :: x in r <==> x in s && keep(x)
    decreases |s|
  {
    if |s| == 0 then []
    else
      var rest := Filter(s[1..], keep);
      assert s == [s[0]] + s[1..];
      if keep(s[0]) then [s[0]] + rest else rest
  }

  /** Filtering keeps every occurrence of each element that passes, and none of the others. */
  lemma {:induction false} FilterCount<T(!new)>(s: seq<T>, keep: T -> bool)
    ensures forall x :: multiset(Filter(s, keep))[x] == if keep(x) then multiset(s)[x] else 0
    decreases |s|
  {
    if |s| > 0 {
      FilterCount(s[1..], keep);
      assert s == [s[0]] + s[1..];
    }
  }

  /** Filtering with a weaker test keeps at least as much, in the same order. */
  lemma {:induction false} FilterWeaker<T(!new)>(s: seq<T>, p: T -> bool, q: T -> bool)
    requires forall x :: x in s && p(x) ==> q(x)
    ensures IsSubsequence(Filter(s, p), Filter(s, q))
    decreases |s|
  {
    if |s| > 0 {
      FilterWeaker(s[1..], p, q);
    }
  }

  /** When every element passes the test, filtering changes nothing. */
  lemma {:induction false} FilterAll<T(!new)>(s: seq<T>, keep: T -> bool)
    requires forall x :: x in s ==> keep(x)
    ensures Filter(s, keep) == s
    decreases |s|
  {
    if |s| > 0 {
      FilterAll(s[1..], keep);
      assert s == [s[0]] + s[1..];
    }
  }

  /** Filtering distributes over concatenation. */
  lemma {:induction false} FilterConcat<T(!new)>(a: seq<T>, b: seq<T>, keep: T -> bool)
    ensures Filter(a + b, keep) == Filter(a, keep) + Filter(b, keep)
    decreases |a|
  {
    if |a| == 0 {
      assert a + b == b;
    } else {
      FilterConcat(a[1..], b, keep);
      var head := if keep(a[0]) then [a[0]] else [];
      assert (a + b)[1..] == a[1..] + b;
      assert Filter(a + b, keep) == head + Filter(a[1..] + b, keep);
      assert Filter(a, keep) == head + Filter(a[1..], keep);
    }
  }
}

=== FILE: wrappers.dfy ===
/** An optional value: the model's rendering of a JSON field that may be absent or null. */
module Wrappers {

  datatype Option<+T> = None | Some(value: T) {

    /** The value if present, otherwise `default`: JavaScript's `value || default` for
        strings and arrays, where the only falsy present value is the empty string. */
    function GetOr(default: T): (r: T)
      ensures Some? ==> r == value
      ensures None? ==> r == default
    {
      match this
      case Some(v) => v
      case None => default
    }
  }
}
